=== FILE: README.md ===
# Special right triangles drill: a Dafny model of its rules

The application is a single-page drill on 45-45-90 and 30-60-90 triangles
(`src/App.jsx`). Sixteen problems each give one side as text and ask for
another. The user types an answer, such as `4sqrt(3)`, `4√3`, `4*sqrt(3)` or
`6.928`. The page does the following:

- It parses the answer as a radical.
- It compares the answer with the canonical one to within 1/1000.
- It scores the solve: base points by difficulty, a first-try bonus and a
  streak bonus.
- It keeps the solved set, the score, the streak and the best streak, and
  saves all but the streak.
- It shows progressive hints after wrong attempts.
- It shows a level badge and a 4×4 mystery picture that uncovers one cell
  per solve.
- It can shuffle the order of the cards.

This project models those rules as pure functions and a few small methods,
and proves what the program promises of them.

Modules, in dependency order:

- `Wrappers`: `Option`.
- `Text`: white-space removal and ASCII lower-casing (`parseRadical`,
  src/App.jsx:124), `trim`, digits and numerals.
- `Shapes`: the three answer shapes the parser's regular expressions accept:
  - a plain decimal;
  - `c sqrt(n)`;
  - `c √n`.
  Each has a printer from structured parts and a matcher. Every matcher is
  proved to be the exact inverse of its printer, which is how the regular
  expressions are given a meaning.
- `Radical`: `parseRadical`. It covers the coefficient defaults, the `NaN`
  that `parseFloat` gives for a coefficient without digits, and `null`.
- `Answer`: `checkAnswer`. No square root is computed. A parsed answer is
  c·√n. Two answers are compared exactly, on squares, with rational
  arithmetic. `CloseIsWithinTolerance` proves that comparison equal to
  |c₁√n₁ − c₂√n₂| < 1/1000 for any real square roots of n₁ and n₂.
- `Catalog`: `PROBLEMS` and `POINTS_MAP`. It also checks that each answer
  follows from the given side by the triangle's ratios.
- `Scoring`: the points of a solve, with `Math.round` on non-negative values
  written as integer rounding half up.
- `Session`: the progress state, with `handleSolve`, `handleWrongAnswer`,
  `handleReset`, event runs, and the saved snapshot.
- `Card`: `ProblemCard.handleSubmit`, with each card's attempt counter.
- `Hints`: `getHint`.
- `Display`: `getLevel`, the mystery picture's cells, and `formatRadical`.
- `Ordering`: `handleShuffle`, a Fisher–Yates shuffle of the card order, and
  the rendered card list. The loop is proved equal to a one-step-per-call
  definition. About that definition it is proved that every arrangement
  comes from some draws, and that two draws give the same arrangement
  exactly when they pick the same places. Picked places and arrangements
  therefore correspond one to one.

## Model

| member | source | states |
|---|---|---|
| Text.NormalizeIdempotent | src/App.jsx:124 | removing white space and lower-casing a second time changes nothing |
| Text.NormalizeFixesClean | src/App.jsx:124 | normalising leaves a text unchanged exactly when it has no white space and no upper-case letter |
| Text.TrimThenNormalize | src/App.jsx:637 | trimming the input before it is parsed makes no difference to the normalised text |
| Text.NormalizeIgnoresCase | src/App.jsx:124 | texts that agree once every letter is lower-cased normalise to the same text, so a capital counts as its small letter |
| Text.Normalize | src/App.jsx:124 | the normalised text has no white space and no upper-case ASCII letter, is no longer than the input, and is empty exactly when the input is all white space |
| Text.Trim | src/App.jsx:630-637 | `trim()` gives a text that neither starts nor ends with white space, no longer than the input, and empty exactly when the input is all white space |
| Shapes.MatchPlainText | src/App.jsx:125 | the plain-number pattern matches every well-formed decimal text and gives back its parts |
| Shapes.MatchPlain | src/App.jsx:125 | whatever the plain-number pattern matches is a well-formed decimal that prints back as the whole text |
| Shapes.MatchRadical | src/App.jsx:126 | whatever the radical pattern matches is a coefficient, an optional `*`, the root and a numeral that print back as the whole text |
| Shapes.MatchRadicalRender | src/App.jsx:126 | the radical pattern matches every well-formed radical text and splits it into exactly the parts it was built from |
| Shapes.RadicalNotPlain | src/App.jsx:125-126 | no radical text is taken for a plain number |
| Shapes.RootsDisjoint | src/App.jsx:126-133 | a `sqrt(n)` text never matches the `√n` pattern, and the reverse |
| Radical.ParseRadical | src/App.jsx:122-139 | an empty text gives `null`, and any other result comes from a text that, normalised, is a plain decimal, a `sqrt(...)` radical or a `√` radical |
| Radical.BlankIsNull | src/App.jsx:123-124 | an empty or all-blank answer parses to `null` |
| Radical.ParseFailsIffUnrecognized | src/App.jsx:122-139 | the parser gives `null` exactly when the normalised text has none of the three accepted shapes |
| Radical.ParseIgnoresCase | src/App.jsx:122-139 | texts that differ only in the case of their letters parse to the same value or both to `null` |
| Radical.ParseIgnoresSpaceAndCase | src/App.jsx:124 | the parse of a text equals the parse of that text with white space removed and letters lower-cased |
| Radical.ParsePlainDecimal | src/App.jsx:125 | a plain decimal parses to its own value |
| Radical.ParseRadicalText | src/App.jsx:126-137 | a radical text parses to its coefficient by the rule of its form, times the square root of its radicand |
| Radical.SqrtCallDefaults | src/App.jsx:128 | in the `sqrt(...)` form an empty coefficient means 1, a lone `-` means -1, a lone `.` or `-.` gives `NaN`, and anything with a digit its decimal value |
| Radical.RadicalSignDefaults | src/App.jsx:134 | in the `√` form an empty coefficient means 1, while a lone `-`, `.` or `-.` gives `NaN` |
| Radical.ParseInteger | src/App.jsx:125 | every integer numeral parses to that integer |
| Radical.ParseIntegerTimesSqrt | src/App.jsx:126-131 | `c sqrt(r)` parses to c·√r for every integer c and natural r |
| Radical.ParseBareSqrtCall | src/App.jsx:128 | `sqrt(r)` parses to √r and `-sqrt(r)` to −√r |
| Radical.ParseBareRadicalSign | src/App.jsx:133-136 | `√r` parses to √r but `-√r` gives `NaN` |
| Answer.CloseIsWithinTolerance | src/App.jsx:145 | the exact comparison on squares agrees with \|c₁√n₁ − c₂√n₂\| < 1/1000 for every choice of the square roots |
| Answer.CheckAnswer | src/App.jsx:141-146 | an answer is accepted only when both texts parse to a number |
| Answer.CheckAnswerIsNumeric | src/App.jsx:141-146 | for any real values the two texts denote, the answer is accepted exactly when they differ by less than 1/1000 |
| Answer.CheckAnswerSymmetric | src/App.jsx:141-146 | swapping the user's text and the canonical text does not change the verdict |
| Answer.CheckAnswerReflexive | src/App.jsx:141-146 | every text that parses to a number is accepted as its own answer |
| Answer.EquivalentRadicalsAccepted | src/App.jsx:141-146 | `2sqrt(12)` and `4sqrt(3)` accept each other |
| Answer.RoundedDecimalAccepted | src/App.jsx:141-146 | `11.3137` is accepted for `8sqrt(2)` but `11.31` is not |
| Catalog.CatalogShape | src/App.jsx:85-102 | the catalog has 16 problems with ids 1 to 16 in order, each with one given side and a difficulty from 1 to 4 |
| Catalog.CatalogParses | src/App.jsx:85-102 | every given length and every canonical answer parses to the whole multiple of a square root it spells |
| Catalog.CatalogAnswersFollowRatios | src/App.jsx:85-102 | every canonical answer is the asked side of a triangle of its kind whose given side has the given length |
| Catalog.PointsMap | src/App.jsx:104 | base points exist exactly for difficulties 1 to 4, and are 100, 200, 350 or 500 |
| Catalog.PointsMapIncreasing | src/App.jsx:104 | a harder problem has more base points |
| Catalog.FindProblemById | src/App.jsx:899 | looking up an id finds a problem exactly for ids 1 to 16, namely the one at position id − 1 |
| Scoring.RoundPercent | src/App.jsx:901-905 | the rounded bonus is the nearest whole number to base·pct/100, a half rounding up |
| Scoring.FirstTryBonus | src/App.jsx:901 | the first-try bonus is half the base, rounded up, with no wrong attempt before, and 0 otherwise |
| Scoring.StreakBonus | src/App.jsx:905 | the streak bonus is 0 below a streak of 3; for streaks 3 and 4 it is the nearest whole number to 15% of the base, and from 5 on the nearest to 30%, a half rounding up |
| Scoring.StreakBonusMonotone | src/App.jsx:905 | a longer streak never earns a smaller streak bonus |
| Scoring.Points | src/App.jsx:900-906 | a solve earns at least its base and at most twice it, and more than the base on a first try |
| Scoring.BonusTable | src/App.jsx:901-905 | the rounded bonuses for the four bases, including 53 for 15% of 350 |
| Session.Add | src/App.jsx:888-889 | adding an id to the solved set keeps every id once and appends a new one at the end |
| Session.BasePoints | src/App.jsx:899-900 | the base points of a problem are the `POINTS_MAP` entry of its difficulty: 100, 200, 350 or 500 |
| Session.Solve | src/App.jsx:886-917 | a solve adds the id and changes no other membership; the streak grows by one; the best streak becomes the larger of itself and the new streak; the score grows by exactly the base points, the first-try bonus for the attempts and the streak bonus for the new streak, which lies between one and two times the base |
| Session.Wrong | src/App.jsx:919-921 | a wrong answer sets the streak to 0 and keeps the solved set, the score and the best streak |
| Session.Reset | src/App.jsx:937-945 | a reset clears the solved set, the score, the streak and the best streak |
| Session.SolvePreservesValid | src/App.jsx:886-917 | a solve keeps the state valid: no id twice, only catalog ids, a non-negative score, and a best streak at least the streak |
| Session.FirstTryExample | src/App.jsx:899-906 | problem 1 solved first, on the first try, scores 150 |
| Session.StreakExample | src/App.jsx:899-906 | problem 9 solved as the fifth in a row after one wrong try scores 455 |
| Session.CompleteIffAllSolved | src/App.jsx:890 | in a valid state the solved set has 16 ids exactly when every problem is solved |
| Session.RunPreservesValid | src/App.jsx:886-945 | every sequence of solves, wrong answers and resets keeps the state valid |
| Session.RunMonotone | src/App.jsx:886-921 | without a reset nothing solved is lost, and neither the score nor the best streak goes down |
| Session.RunStreak | src/App.jsx:907-921 | the streak counts the solves since the last wrong answer or reset |
| Session.Dedup | src/App.jsx:110 | `new Set(array)` holds each element of the array once and nothing else |
| Session.Save | src/App.jsx:115-119 | the snapshot holds the solved ids, the score and the best streak, and not the streak |
| Session.Load | src/App.jsx:107-114 | loading gives `null` exactly when nothing is stored or it has no `solved`; otherwise the stored ids, each kept once (`new Set`), the stored score or 0, the stored best streak or 0, and a streak of 0 |
| Session.Initial | src/App.jsx:871-875 | the page starts with a streak of 0 and no id twice; with nothing stored it starts empty, and with a stored solved list it starts with exactly the stored ids and takes the stored score and best streak or 0 |
| Session.LoadSave | src/App.jsx:107-120 | loading what was saved from a valid state gives back that state with the streak at 0 |
| Session.InitialWithoutData | src/App.jsx:871-875 | with nothing stored, or any snapshot without a solved list, the page starts from an empty state, whatever score and best streak were stored |
| Card.Submit | src/App.jsx:626-654 | a solved card ignores the submission; blank input changes nothing; on an unsolved card a non-blank answer is correct exactly when it is accepted against the canonical one, and otherwise incorrect; a correct one passes the card's attempts to the solve; an incorrect one breaks the streak and adds one to that card's attempts only |
| Card.CheckTrimmed | src/App.jsx:637 | checking the trimmed input gives the same verdict as checking the raw input |
| Card.CanonicalAnswerSolves | src/App.jsx:637-644 | the canonical answer, in any spacing and case, solves an unsolved card |
| Card.ResetGame | src/App.jsx:937-945 | a reset does not touch any card's attempt counter |
| Card.SubmitPreservesValid | src/App.jsx:626-654 | submissions keep the session state valid |
| Card.SolvedStays | src/App.jsx:626-654 | without a reset, any run of submissions on any cards keeps every solved problem solved |
| Card.SolvedOnce | src/App.jsx:626-629 | after a correct answer, the card ignores every submission made before the next reset, whatever is submitted on any card in between |
| Hints.GetHint | src/App.jsx:411-458 | the hint shown is never empty: it is one of the problem's hints or the general reminder, and the reminder for a question the table does not cover |
| Hints.HintListShape | src/App.jsx:411-454 | a covered question gets two or three hints, all non-empty; any other gets none |
| Hints.PickClamps | src/App.jsx:456-457 | the attempts select that hint, held at the last one; with no hints the general reminder is shown |
| Hints.GetHintProgresses | src/App.jsx:411-458 | each wrong attempt shows the next hint of a covered question, until the last one, which then stays |
| Hints.GetHintDefault | src/App.jsx:457 | a question the hint table does not cover shows the general reminder |
| Hints.SecondHintQuotesGiven | src/App.jsx:414-453 | when the given side is the one the hint quotes, the second hint contains its length |
| Hints.CatalogHints | src/App.jsx:85-102 | every catalog problem gets two or three hints, and its second hint contains its given length |
| Display.GetLevel | src/App.jsx:561-568 | the badge's rank is the number of the thresholds 1, 4, 8, 12 and 16 that the solved count reaches |
| Display.GetLevelMonotone | src/App.jsx:561-568 | solving more never lowers the badge |
| Display.LegendIffComplete | src/App.jsx:562 | the top badge is earned exactly when all 16 problems are solved |
| Display.BadgeTextsDistinct | src/App.jsx:562-567 | no two badges share a title or a colour |
| Display.SameTitleIffSameThresholds | src/App.jsx:561-568 | two solved counts show the same badge title exactly when they reach the same thresholds |
| Display.MysteryCells | src/App.jsx:461-468 | the picture has 16 cells, row by row, and cell idx is uncovered exactly when idx < solvedCount |
| Display.UncoveredCount | src/App.jsx:467 | the number of uncovered cells is the solved count, kept between 0 and the number of cells |
| Display.FormatRadical | src/App.jsx:149-158 | empty text draws nothing; a root form is digits, then `sqrt(`, a numeral and `)`, making up the whole text; anything else is drawn as it is |
| Display.FormatRadicalSplits | src/App.jsx:151-155 | `coeff sqrt(rad)` with a digit coefficient is split back into exactly that coefficient and radicand |
| Display.FormatSurdText | src/App.jsx:149-158 | how every catalog length is drawn: a whole number as it is, and any other as its coefficient (none for 1) over its radicand |
| Ordering.Draw | src/App.jsx:929 | `Math.floor(Math.random() * (i + 1))` is a position from 0 to i |
| Ordering.Swap | src/App.jsx:930 | the swap exchanges two entries, keeps the others, and is a no-op on one position |
| Ordering.SwapPermutes | src/App.jsx:930 | a swap keeps the same entries, each as often |
| Ordering.StepsSameIff | src/App.jsx:928-931 | on distinct entries, two runs of the loop lay out the same order exactly when they swap each position with the same place |
| Ordering.StepsPermutes | src/App.jsx:928-931 | the loop only rearranges the entries |
| Ordering.SameOrderIffSamePositions | src/App.jsx:926-932 | two shuffles lay out the same order exactly when their draws pick the same places, position by position |
| Ordering.PicksFor | src/App.jsx:928-931 | for every rearrangement of the places up to i, some picks make the loop produce it |
| Ordering.ArrangementDraws | src/App.jsx:926-932 | every arrangement of the n indices is laid out by some draws in [0, 1); with `SameOrderIffSamePositions`, arrangements and picked places correspond one to one, which is why uniform draws give each arrangement the same chance |
| Ordering.FisherYatesFacts | src/App.jsx:926-932 | a shuffle lays out each index exactly once, the last place holds the first draw's pick, and draws that never move an entry leave the catalog order |
| Ordering.Shuffle | src/App.jsx:926-930 | the loop as written lays out exactly the order the one-step-per-call definition gives for the same draws, so it has every property proved of that order: each index exactly once, the first draw's pick last, the catalog order when no draw moves an entry |
| Ordering.ArrangementCoversAll | src/App.jsx:926-930 | an arrangement of 0..n−1 holds only indices below n, every one of them, and none twice |
| Ordering.HandleShuffle | src/App.jsx:923-935 | the shuffled flag flips; a shuffled list goes back to catalog order; an unshuffled one becomes the Fisher–Yates arrangement of the catalog for the draws, whose last card is the first draw's pick |
| Ordering.ShuffleTwice | src/App.jsx:923-935 | pressing twice from catalog order returns to it, whatever was drawn, and pressing twice from a shuffled list leaves it shuffled |
| Ordering.EveryProblemOnce | src/App.jsx:1318-1319 | in every layout the button can reach, each problem has exactly one card |

## Left out

- Floating point is replaced by exact real arithmetic. `parseFloat` of the
  captured digits is their exact decimal value, and `Math.sqrt` is
  idealised. A parsed answer is kept as a coefficient and a radicand, and
  acceptance is decided on exact squares. Answers that differ from the
  tolerance by less than double-precision rounding error may get a
  different verdict from the program's. Numerals beyond the double range
  (above about 1.8·10³⁰⁸, such as a 309-digit number) are finite here but
  `Infinity` in the program, where `Infinity - Infinity` and
  `0 * Infinity` are `NaN`. The program rejects such an answer even
  against itself, while `CheckAnswerReflexive` accepts it.
- `toLowerCase` is modelled for ASCII letters only. No other character
  lower-cases into one the parser's patterns look for.
- A `null` or `undefined` input is modelled as the empty string. The
  program treats both the same way (`!str`).
- Sound, confetti, timeouts, focus, the shake animation and all rendering
  are left out. What is modelled are the values the render reads: the
  badge, the picture's cells, the radical split and the card order. The
  emoji of each badge is left out as well.
- Storage I/O is left out. The stored JSON is a `Snapshot` value. A
  missing field, a falsy one (`0`, `""`, `null`) and unreadable JSON are
  all `None`; a zero that `Save` writes is `Some(0)`, and `OrZero` reads
  both as 0, as `|| 0` does. `localStorage.removeItem` on reset is not modelled.
- `Math.random` is an input: the sequence of numbers in [0, 1) that the
  shuffle draws.
- React's batching and the order of state updates are left out. Each
  handler is one atomic step from state to state, and the state after a
  solve is what the functional updates compute together.
- The `useEffect` that saves after every change is left out. `Save` and
  `Load` model one save and the next page load.
- Session.Solve: requires an id from 1 to 16. The program would throw on
  any other id, because `PROBLEMS.find` returns `undefined`. Cards only
  ever pass catalog ids.
- Session.BasePoints: requires an id from 1 to 16, for the same reason.
- Card.Submit: takes the card's problem by id (`PROBLEMS[id - 1]`)
  rather than as an object.
- Hints.GetHintDefault: states only that an uncovered question gets the
  reminder. It does not state that a covered question never shows the
  reminder text itself, although no hint in the table equals it.
- The other answer shapes a user might type (fractions, `√(n)` with
  parentheses, `sqrt n`) are not modelled beyond the parser's rejection of
  them, which `ParseFailsIffUnrecognized` covers.

Two behaviours of the program are kept as they are written:

- In the `√` form, a lone `-` coefficient gives `NaN` rather than −1, unlike
  the `sqrt(...)` form. A `NaN` answer is never accepted.
- A card's attempt counter is not cleared by a reset or a shuffle, because
  cards are keyed by problem id. A problem solved again after a reset
  therefore earns the first-try bonus only if it had no wrong attempts
  before the reset either.

=== FILE: answer.dfy ===
/**
 * The answer checker (`checkAnswer`): both texts are parsed, and the user's
 * answer is accepted when both denote numbers less than 1/1000 apart.
 *
 * The comparison never computes a square root. `Close` decides
 * |c1·√r1 − c2·√r2| < ε on the squares c1²·r1 and c2²·r2 with rational
 * arithmetic only, and `CloseIsWithinTolerance` proves it equal to the real
 * comparison for the actual square roots.
 */
module Answer {
  import opened Text
  import opened Shapes
  import opened Radical

  /** The fixed acceptance tolerance, 0.001. */
  const Tolerance: real := 0.001

  function Abs(x: real): real {
    if x < 0.0 then -x else x
  }

  /** `y` is the non-negative square root of `n`. */
  ghost predicate IsSqrt(y: real, n: nat) {
    y >= 0.0 && y * y == n as real
  }

  /** The parsed answer stands for the number `x`. */
  ghost predicate Denotes(p: Parsed, x: real) {
    p.Val? && exists y :: IsSqrt(y, p.radicand) && x == p.coef * y
  }

  /** Whether c1·√r1 and c2·√r2 lie less than `Tolerance` apart, decided
      without square roots: with a = c1²·r1, b = c2²·r2 and l = a + b − ε²,
      the distance is below ε iff l < 2·c1·c2·√(r1·r2). */
  function Close(c1: real, r1: nat, c2: real, r2: nat): bool {
    var a := c1 * c1 * r1 as real;
    var b := c2 * c2 * r2 as real;
    var l := a + b - Tolerance * Tolerance;
    if c1 * c2 < 0.0 && r1 > 0 && r2 > 0 then l < 0.0 && l * l > 4.0 * a * b
    else l < 0.0 || l * l < 4.0 * a * b
  }

  /** Squaring is strictly monotone on the non-negative reals. */
  lemma SquareMonotone(x: real, y: real)
    requires x >= 0.0 && y >= 0.0
    ensures x < y <==> x * x < y * y
  {
    if x < y {
      assert x * y - x * x == x * (y - x) >= 0.0;
      assert y * y - x * y == y * (y - x) > 0.0;
    } else {
      assert x * x - y * x == x * (x - y) >= 0.0;
      assert y * x - y * y == y * (x - y) >= 0.0;
    }
  }

  lemma AbsBelowIffSquareBelow(d: real, e: real)
    requires e > 0.0
    ensures Abs(d) < e <==> d * d < e * e
  {
    SquareMonotone(Abs(d), e);
    assert Abs(d) * Abs(d) == d * d;
  }

  /** l < 2m, decided on squares. */
  lemma BelowTwiceIff(l: real, m: real)
    ensures m >= 0.0 ==> (l < 2.0 * m <==> l < 0.0 || l * l < 4.0 * (m * m))
    ensures m < 0.0 ==> (l < 2.0 * m <==> l < 0.0 && l * l > 4.0 * (m * m))
  {
    assert (2.0 * m) * (2.0 * m) == 4.0 * (m * m);
    if m >= 0.0 && l >= 0.0 {
      SquareMonotone(l, 2.0 * m);
    }
    if m < 0.0 && l < 0.0 {
      SquareMonotone(-2.0 * m, -l);
    }
  }

  lemma ProductSquares(c1: real, y1: real, c2: real, y2: real)
    ensures (c1 * y1) * (c1 * y1) == c1 * c1 * (y1 * y1)
    ensures (c2 * y2) * (c2 * y2) == c2 * c2 * (y2 * y2)
    ensures ((c1 * y1) * (c2 * y2)) * ((c1 * y1) * (c2 * y2))
         == (c1 * c1 * (y1 * y1)) * (c2 * c2 * (y2 * y2))
  {
  }

  lemma ProductSign(c1: real, y1: real, c2: real, y2: real)
    requires y1 >= 0.0 && y2 >= 0.0
    ensures (c1 * y1) * (c2 * y2) < 0.0 <==> c1 * c2 < 0.0 && y1 > 0.0 && y2 > 0.0
  {
    assert (c1 * y1) * (c2 * y2) == (c1 * c2) * (y1 * y2);
    if y1 > 0.0 && y2 > 0.0 {
      assert y1 * y2 > 0.0;
    }
  }

  /** For u² = a, v² = b and m = u·v: |u − v| < e iff a + b − e² < 2m. */
  lemma DistanceBelowIff(u: real, v: real, a: real, b: real, m: real, e: real)
    requires u * u == a && v * v == b && m == u * v && e > 0.0
    ensures Abs(u - v) < e <==> a + b - e * e < 2.0 * m
  {
    assert (u - v) * (u - v) == u * u + v * v - 2.0 * (u * v);
    AbsBelowIffSquareBelow(u - v, e);
  }

  lemma RootPositive(y: real, r: nat)
    requires IsSqrt(y, r)
    ensures y > 0.0 <==> r > 0
  {
    SquarePositive(y, r as real);
  }

  lemma SquarePositive(y: real, x: real)
    requires y >= 0.0 && y * y == x
    ensures y > 0.0 <==> x > 0.0
  {
    SquareMonotone(0.0, y);
  }

  /** `Close` is the real comparison |c1·y1 − c2·y2| < 0.001 for the square
      roots y1 = √r1 and y2 = √r2. */
  lemma CloseIsWithinTolerance(c1: real, r1: nat, c2: real, r2: nat, y1: real, y2: real)
    requires IsSqrt(y1, r1) && IsSqrt(y2, r2)
    ensures Close(c1, r1, c2, r2) <==> Abs(c1 * y1 - c2 * y2) < Tolerance
  {
    var u, v := c1 * y1, c2 * y2;
    var a := c1 * c1 * r1 as real;
    var b := c2 * c2 * r2 as real;
    ProductSquares(c1, y1, c2, y2);
    DistanceBelowIff(u, v, a, b, u * v, Tolerance);
    ProductSign(c1, y1, c2, y2);
    RootPositive(y1, r1);
    RootPositive(y2, r2);
    BelowTwiceIff(a + b - Tolerance * Tolerance, u * v);
  }

  /** The comparison of two parsed answers: `null` on either side, or a
      `NaN` (whose distance to anything is never below the tolerance),
      rejects. */
  function Accepts(u: Parsed, c: Parsed): (ok: bool)
    ensures ok ==> u.Val? && c.Val?
  {
    if u == None || c == None then false
    else if u.NaN? || c.NaN? then false
    else Close(u.coef, u.radicand, c.coef, c.radicand)
  }

  /** `checkAnswer`. */
  function CheckAnswer(user: string, answer: string): (ok: bool)
    ensures ok ==> ParseRadical(user).Val? && ParseRadical(answer).Val?
  {
    Accepts(ParseRadical(user), ParseRadical(answer))
  }

  /** On parsed values the comparison is numeric: when they denote `x` and
      `z`, it accepts exactly when |x − z| < 0.001. */
  lemma AcceptsIsNumeric(u: Parsed, c: Parsed, x: real, z: real)
    requires Denotes(u, x) && Denotes(c, z)
    ensures Accepts(u, c) <==> Abs(x - z) < Tolerance
  {
    var y1 :| IsSqrt(y1, u.radicand) && x == u.coef * y1;
    var y2 :| IsSqrt(y2, c.radicand) && z == c.coef * y2;
    AcceptsAtRoots(u, c, y1, y2);
  }

  lemma AcceptsAtRoots(u: Parsed, c: Parsed, y1: real, y2: real)
    requires u.Val? && c.Val? && IsSqrt(y1, u.radicand) && IsSqrt(y2, c.radicand)
    ensures Accepts(u, c) <==> Abs(u.coef * y1 - c.coef * y2) < Tolerance
  {
    CloseIsWithinTolerance(u.coef, u.radicand, c.coef, c.radicand, y1, y2);
  }

  /** The check is numeric, never textual: when the two texts denote `x`
      and `z`, it accepts exactly when |x − z| < 0.001. */
  lemma CheckAnswerIsNumeric(user: string, answer: string, x: real, z: real)
    requires Denotes(ParseRadical(user), x) && Denotes(ParseRadical(answer), z)
    ensures CheckAnswer(user, answer) <==> Abs(x - z) < Tolerance
  {
    AcceptsIsNumeric(ParseRadical(user), ParseRadical(answer), x, z);
  }

  /** Which text is the user's and which the canonical one does not matter. */
  lemma CheckAnswerSymmetric(user: string, answer: string)
    ensures CheckAnswer(user, answer) == CheckAnswer(answer, user)
  {
    AcceptsSymmetric(ParseRadical(user), ParseRadical(answer));
  }

  lemma AcceptsSymmetric(u: Parsed, c: Parsed)
    ensures Accepts(u, c) == Accepts(c, u)
  {
    if u.Val? && c.Val? {
      assert c.coef * u.coef == u.coef * c.coef;
    }
  }

  /** Every parsed number is accepted against itself. */
  lemma AcceptsItself(c: real, r: nat)
    ensures Accepts(Val(c, r), Val(c, r))
  {
    var a := c * c * r as real;
    var l := a + a - Tolerance * Tolerance;
    assert c * c >= 0.0;
    assert a >= 0.0;
    if l >= 0.0 {
      SquareMonotone(l, 2.0 * a);
      assert (2.0 * a) * (2.0 * a) == 4.0 * a * a;
    }
  }

  /** A text that parses is accepted as an answer to itself. */
  lemma CheckAnswerReflexive(s: string)
    requires ParseRadical(s).Val?
    ensures CheckAnswer(s, s)
  {
    AcceptsItself(ParseRadical(s).coef, ParseRadical(s).radicand);
  }

  /** `"2sqrt(12)"` and `"4sqrt(3)"` accept each other. */
  lemma EquivalentRadicalsAccepted()
    ensures CheckAnswer("2sqrt(12)", "4sqrt(3)")
    ensures CheckAnswer("4sqrt(3)", "2sqrt(12)")
  {
    assert IntText(2) + "sqrt(" + NatText(12) + ")" == "2sqrt(12)";
    assert IntText(4) + "sqrt(" + NatText(3) + ")" == "4sqrt(3)";
    ParseIntegerTimesSqrt(2, 12);
    ParseIntegerTimesSqrt(4, 3);
    assert Accepts(Val(2.0, 12), Val(4.0, 3));
    assert Accepts(Val(4.0, 3), Val(2.0, 12));
  }

  /** A decimal rounded to four places is accepted for 8√2 (≈ 11.31371);
      one rounded to two places is not. */
  lemma RoundedDecimalAccepted()
    ensures CheckAnswer("11.3137", "8sqrt(2)")
    ensures !CheckAnswer("11.31", "8sqrt(2)")
  {
    assert IntText(8) + "sqrt(" + NatText(2) + ")" == "8sqrt(2)";
    ParseIntegerTimesSqrt(8, 2);
    FourPlaces();
    TwoPlaces();
    assert Accepts(Val(11.3137, 1), Val(8.0, 2));
    assert !Accepts(Val(11.31, 1), Val(8.0, 2));
  }

  lemma FourPlaces()
    ensures ParseRadical("11.3137") == Val(11.3137, 1)
  {
    var d := Decimal(false, "11", true, "3137");
    assert DecimalText(d) == "11.3137";
    assert DigitsValue("11") == 11 && DigitsValue("31") == 31;
    assert "3137"[..3] == "313" && DigitsValue("313") == 313;
    assert DigitsValue("3137") == 3137 && Pow10(4) == 10000;
    assert DecimalValue(d) == 11.3137;
    ParsePlainDecimal(d);
  }

  lemma TwoPlaces()
    ensures ParseRadical("11.31") == Val(11.31, 1)
  {
    var d := Decimal(false, "11", true, "31");
    assert DecimalText(d) == "11.31";
    assert DigitsValue("11") == 11 && DigitsValue("31") == 31 && Pow10(2) == 100;
    assert DecimalValue(d) == 11.31;
    ParsePlainDecimal(d);
  }
}

=== FILE: card.dfy ===
/**
 * A problem card's submit handler (`ProblemCard.handleSubmit`): it ignores
 * a problem already solved, refuses blank input without counting it,
 * reports a correct answer to `handleSolve` with the number of wrong
 * attempts so far, and counts a wrong one and reports it to
 * `handleWrongAnswer`.
 *
 * Each card keeps its own attempt counter. Cards are keyed by problem id,
 * so a counter lives as long as the page: neither a reset nor a shuffle
 * sets it back. The counters are kept here as one map from problem id to
 * count, a missing id counting 0.
 */
module Card {
  import opened Text
  import opened Catalog
  import opened Radical
  import opened Answer
  import opened Session

  datatype Game = Game(progress: Progress, attempts: map<int, nat>)

  /** The wrong attempts the card of problem `id` has counted. */
  function AttemptsOf(g: Game, id: int): nat {
    if id in g.attempts then g.attempts[id] else 0
  }

  /** What a submission did. */
  datatype Outcome = AlreadySolved | Blank | Correct(attempts: nat) | Incorrect

  /** `handleSubmit` on the card of problem `id` (`PROBLEMS[id - 1]`) with
      `input` in its box. */
  function Submit(g: Game, id: int, input: string): (r: (Game, Outcome))
    requires 1 <= id <= ProblemCount
    ensures id in g.progress.solved ==> r == (g, AlreadySolved)
    ensures id !in g.progress.solved && IsBlank(input) ==> r == (g, Blank)
    ensures r.1.Correct? <==>
      id !in g.progress.solved && !IsBlank(input) && CheckAnswer(input, Problems[id - 1].answer)
    ensures id !in g.progress.solved && !IsBlank(input) && !CheckAnswer(input, Problems[id - 1].answer) ==>
      r.1 == Incorrect
    ensures r.1.Correct? ==>
      r.1.attempts == AttemptsOf(g, id) && r.0 == Game(Solve(g.progress, id, AttemptsOf(g, id)), g.attempts)
    ensures r.1.Incorrect? ==>
      && r.0.progress == Wrong(g.progress)
      && AttemptsOf(r.0, id) == AttemptsOf(g, id) + 1
      && forall other :: other != id ==> AttemptsOf(r.0, other) == AttemptsOf(g, other)
  {
    CheckTrimmed(input, Problems[id - 1].answer);
    if id in g.progress.solved then (g, AlreadySolved)
    else if Trim(input) == [] then (g, Blank)
    else if CheckAnswer(Trim(input), Problems[id - 1].answer) then
      var n := AttemptsOf(g, id);
      (g.(progress := Solve(g.progress, id, n)), Correct(n))
    else
      (Game(Wrong(g.progress), g.attempts[id := AttemptsOf(g, id) + 1]), Incorrect)
  }

  /** Trimming the input before checking it changes nothing, since the
      parser drops all white space. */
  lemma CheckTrimmed(input: string, answer: string)
    ensures CheckAnswer(Trim(input), answer) == CheckAnswer(input, answer)
  {
    TrimThenNormalize(input);
    ParseIgnoresSpaceAndCase(input);
    ParseIgnoresSpaceAndCase(Trim(input));
  }

  /** Typing a problem's own answer, in any spacing and case, solves it. */
  lemma CanonicalAnswerSolves(g: Game, id: int, input: string)
    requires 1 <= id <= ProblemCount && id !in g.progress.solved
    requires Normalize(input) == Normalize(Problems[id - 1].answer)
    ensures Submit(g, id, input).1 == Correct(AttemptsOf(g, id))
  {
    var answer := Problems[id - 1].answer;
    CatalogParses();
    assert ParseRadical(answer).Val?;
    CheckAnswerReflexive(answer);
    ParseIgnoresSpaceAndCase(answer);
    ParseIgnoresSpaceAndCase(input);
    assert CheckAnswer(input, answer) == CheckAnswer(answer, answer);
  }

  /** A reset leaves every card's attempt counter as it was. */
  function ResetGame(g: Game): (h: Game)
    ensures h.progress == Fresh
    ensures forall id :: AttemptsOf(h, id) == AttemptsOf(g, id)
  {
    g.(progress := Reset(g.progress))
  }

  /** Submissions keep the session state valid. */
  lemma SubmitPreservesValid(g: Game, id: int, input: string)
    requires 1 <= id <= ProblemCount && Valid(g.progress)
    ensures Valid(Submit(g, id, input).0.progress)
  {
    var r := Submit(g, id, input);
    if r.1.Correct? {
      SolvePreservesValid(g.progress, id, AttemptsOf(g, id));
    } else if r.1.Incorrect? {
      WrongPreservesValid(g.progress);
    }
  }

  /** A submission: the id of the card and the text in its box. */
  datatype Entry = Entry(id: int, input: string)

  predicate EntriesOk(es: seq<Entry>) {
    forall k :: 0 <= k < |es| ==> 1 <= es[k].id <= ProblemCount
  }

  /** The game after the submissions `es`, in order, on any cards, with no
      reset in between. */
  function SubmitAll(g: Game, es: seq<Entry>): Game
    requires EntriesOk(es)
  {
    if es == [] then g
    else
      var last := es[|es| - 1];
      Submit(SubmitAll(g, es[..|es| - 1]), last.id, last.input).0
  }

  /** Without a reset, a solved problem stays solved. */
  lemma {:induction false} SolvedStays(g: Game, es: seq<Entry>, id: int)
    requires EntriesOk(es) && id in g.progress.solved
    ensures id in SubmitAll(g, es).progress.solved
  {
    if es != [] {
      SolvedStays(g, es[..|es| - 1], id);
    }
  }

  /** A problem can be solved once: after a correct answer, its card
      ignores every submission made before the next reset, whatever was
      submitted on any card in between. */
  lemma SolvedOnce(g: Game, id: int, input: string, between: seq<Entry>, again: string)
    requires 1 <= id <= ProblemCount && EntriesOk(between)
    requires Submit(g, id, input).1.Correct?
    ensures var h := SubmitAll(Submit(g, id, input).0, between);
      Submit(h, id, again) == (h, AlreadySolved)
  {
    SolvedStays(Submit(g, id, input).0, between, id);
  }
}

=== FILE: catalog.dfy ===
/**
 * The fixed problem catalog (`PROBLEMS`) and the base points per difficulty
 * (`POINTS_MAP`).
 *
 * The triangle tags ("45-45-90", "30-60-90") and the side names used as keys
 * of `given` and as values of `find` are modelled as enumerations of the
 * names the program uses. Lengths and answers stay text, since they are
 * what the answer parser reads.
 *
 * Every given length and every answer in the catalog is a whole multiple of
 * a square root (`8`, `sqrt(6)`, `4sqrt(3)`). `Surd` names such a number and
 * `SurdText` is how the catalog spells it; the lemmas below show that each
 * text in the catalog is such a spelling, that the answer parser reads it
 * back, and that every answer is the side the triangle's ratios ask for.
 */
module Catalog {
  import opened Text
  import opened Wrappers
  import Radical

  /** `type`: "45-45-90" or "30-60-90". */
  datatype Kind = IsoscelesRight | HalfEquilateral

  /** The side names: `leg1`, `hyp`, `short` and `long` as keys of `given`;
      `hypotenuse`, `leg`, `short` and `long` as values of `find`. */
  datatype Side = Leg1 | Leg | Hyp | Hypotenuse | Short | Long

  /** One drill: the triangle, the given sides (name and length text, in
      key order), the side asked for, the canonical answer and the
      difficulty. */
  datatype Problem = Problem(
    id: int, kind: Kind, given: seq<(Side, string)>, find: Side, answer: string, difficulty: int)

  /** No id (or index) appears twice. */
  predicate NoDup(s: seq<int>) {
    forall i, j :: 0 <= i < j < |s| ==> s[i] != s[j]
  }

  /** The number of problems; finishing means solving this many. */
  const ProblemCount: nat := 16

  /** Entry i of `PROBLEMS`. */
  function Row(i: nat): Problem
    requires i < ProblemCount
  {
    match i
    case 0 => Problem(1, IsoscelesRight, [(Leg1, "8")], Hypotenuse, "8sqrt(2)", 1)
    case 1 => Problem(2, HalfEquilateral, [(Short, "4")], Long, "4sqrt(3)", 1)
    case 2 => Problem(3, HalfEquilateral, [(Hyp, "12")], Short, "6", 1)
    case 3 => Problem(4, IsoscelesRight, [(Hyp, "10sqrt(2)")], Leg, "10", 1)
    case 4 => Problem(5, HalfEquilateral, [(Short, "3sqrt(2)")], Hypotenuse, "6sqrt(2)", 2)
    case 5 => Problem(6, IsoscelesRight, [(Leg1, "5sqrt(3)")], Hypotenuse, "5sqrt(6)", 2)
    case 6 => Problem(7, HalfEquilateral, [(Long, "9")], Short, "3sqrt(3)", 2)
    case 7 => Problem(8, IsoscelesRight, [(Hyp, "14")], Leg, "7sqrt(2)", 2)
    case 8 => Problem(9, HalfEquilateral, [(Hyp, "10sqrt(3)")], Long, "15", 3)
    case 9 => Problem(10, IsoscelesRight, [(Leg1, "sqrt(6)")], Hypotenuse, "2sqrt(3)", 3)
    case 10 => Problem(11, HalfEquilateral, [(Long, "6sqrt(3)")], Hypotenuse, "12", 3)
    case 11 => Problem(12, IsoscelesRight, [(Hyp, "3sqrt(10)")], Leg, "3sqrt(5)", 3)
    case 12 => Problem(13, HalfEquilateral, [(Short, "2sqrt(5)")], Hypotenuse, "4sqrt(5)", 4)
    case 13 => Problem(14, IsoscelesRight, [(Leg1, "4sqrt(7)")], Hypotenuse, "4sqrt(14)", 4)
    case 14 => Problem(15, HalfEquilateral, [(Hyp, "8sqrt(2)")], Short, "4sqrt(2)", 4)
    case 15 => Problem(16, HalfEquilateral, [(Long, "2sqrt(21)")], Hypotenuse, "4sqrt(7)", 4)
  }

  /** `PROBLEMS`. */
  const Problems: seq<Problem> := [
    Row(0), Row(1), Row(2), Row(3), Row(4), Row(5), Row(6), Row(7),
    Row(8), Row(9), Row(10), Row(11), Row(12), Row(13), Row(14), Row(15)
  ]

  /** The ids run 1..16 in catalog order; every problem has exactly one
      given side and a difficulty in 1..4. */
  lemma CatalogShape()
    ensures |Problems| == ProblemCount
    ensures forall i :: 0 <= i < |Problems| ==> Problems[i] == Row(i)
    ensures forall i :: 0 <= i < |Problems| ==>
      Problems[i].id == i + 1 && |Problems[i].given| == 1 && 1 <= Problems[i].difficulty <= 4
  {
  }

  /** `POINTS_MAP[difficulty]`; undefined outside 1..4. */
  function PointsMap(difficulty: int): (p: Option<nat>)
    ensures p.Some? <==> 1 <= difficulty <= 4
    ensures p.Some? ==> p.value in {100, 200, 350, 500}
  {
    match difficulty
    case 1 => Some(100)
    case 2 => Some(200)
    case 3 => Some(350)
    case 4 => Some(500)
    case _ => None
  }

  /** Harder problems are worth strictly more. */
  lemma PointsMapIncreasing(d: int, e: int)
    requires 1 <= d < e <= 4
    ensures PointsMap(d).value < PointsMap(e).value
  {
  }

  /** `ps.find(p => p.id === id)`: the first problem with that id. */
  function FindIn(ps: seq<Problem>, id: int): (r: Option<Problem>)
    ensures r.Some? ==> r.value in ps && r.value.id == id
    ensures r.None? <==> forall i :: 0 <= i < |ps| ==> ps[i].id != id
  {
    if ps == [] then None
    else if ps[0].id == id then Some(ps[0])
    else FindIn(ps[1..], id)
  }

  /** When position k holds the first problem with that id, `find` returns
      it. */
  lemma {:induction false} FindInFirst(ps: seq<Problem>, id: int, k: nat)
    requires k < |ps| && ps[k].id == id
    requires forall j :: 0 <= j < k ==> ps[j].id != id
    ensures FindIn(ps, id) == Some(ps[k])
  {
    if k > 0 {
      FindInFirst(ps[1..], id, k - 1);
    }
  }

  /** `PROBLEMS.find(p => p.id === id)`. */
  function FindProblem(id: int): (r: Option<Problem>) {
    FindIn(Problems, id)
  }

  /** Looking a problem up by id finds exactly the ids 1..16, at position
      id − 1. */
  lemma FindProblemById(id: int)
    ensures FindProblem(id).Some? <==> 1 <= id <= ProblemCount
    ensures FindProblem(id).Some? ==> FindProblem(id).value == Problems[id - 1]
  {
    CatalogShape();
    if 1 <= id <= ProblemCount {
      FindInFirst(Problems, id, id - 1);
    }
  }

  /** The problem with id `id` sits at position id − 1 and has a
      difficulty `POINTS_MAP` knows. */
  lemma FoundAt(id: int)
    requires 1 <= id <= ProblemCount
    ensures FindProblem(id) == Some(Problems[id - 1])
    ensures 1 <= Problems[id - 1].difficulty <= 4
  {
    FindProblemById(id);
    CatalogShape();
  }

  /** The positive number coef·√radicand. */
  datatype Surd = Surd(coef: nat, radicand: nat)

  predicate SurdOk(x: Surd) {
    x.coef >= 1 && x.radicand >= 1
  }

  /** How the catalog writes a surd: `"6"` when the radicand is 1,
      `"sqrt(6)"` when the coefficient is 1, `"4sqrt(3)"` otherwise. */
  function SurdText(x: Surd): string {
    if x.radicand == 1 then NatText(x.coef)
    else if x.coef == 1 then "sqrt(" + NatText(x.radicand) + ")"
    else NatText(x.coef) + "sqrt(" + NatText(x.radicand) + ")"
  }

  /** The answer parser reads every such text back as the surd it spells. */
  lemma ParseSurdText(x: Surd)
    requires SurdOk(x)
    ensures Radical.ParseRadical(SurdText(x)) == Radical.Val(x.coef as real, x.radicand)
  {
    if x.radicand == 1 {
      Radical.ParseInteger(x.coef);
    } else if x.coef == 1 {
      Radical.ParseBareSqrtCall(x.radicand);
    } else {
      Radical.ParseIntegerTimesSqrt(x.coef, x.radicand);
    }
  }

  /** The given lengths of the catalog, as surds. */
  const GivenSurds: seq<Surd> := [
    Surd(8, 1), Surd(4, 1), Surd(12, 1), Surd(10, 2),
    Surd(3, 2), Surd(5, 3), Surd(9, 1), Surd(14, 1),
    Surd(10, 3), Surd(1, 6), Surd(6, 3), Surd(3, 10),
    Surd(2, 5), Surd(4, 7), Surd(8, 2), Surd(2, 21)
  ]

  /** The answers of the catalog, as surds. */
  const AnswerSurds: seq<Surd> := [
    Surd(8, 2), Surd(4, 3), Surd(6, 1), Surd(10, 1),
    Surd(6, 2), Surd(5, 6), Surd(3, 3), Surd(7, 2),
    Surd(15, 1), Surd(2, 3), Surd(12, 1), Surd(3, 5),
    Surd(4, 5), Surd(4, 14), Surd(4, 2), Surd(4, 7)
  ]

  /** The problem's one given length spells `g` and its answer spells `a`. */
  predicate Spells(p: Problem, g: Surd, a: Surd) {
    |p.given| == 1 && p.given[0].1 == SurdText(g) && p.answer == SurdText(a)
  }

  lemma SpellsRow0() ensures Spells(Row(0), Surd(8, 1), Surd(8, 2)) {}
  lemma SpellsRow1() ensures Spells(Row(1), Surd(4, 1), Surd(4, 3)) {}
  lemma SpellsRow2() ensures Spells(Row(2), Surd(12, 1), Surd(6, 1)) {}
  lemma SpellsRow3() ensures Spells(Row(3), Surd(10, 2), Surd(10, 1)) {}
  lemma SpellsRow4() ensures Spells(Row(4), Surd(3, 2), Surd(6, 2)) {}
  lemma SpellsRow5() ensures Spells(Row(5), Surd(5, 3), Surd(5, 6)) {}
  lemma SpellsRow6() ensures Spells(Row(6), Surd(9, 1), Surd(3, 3)) {}
  lemma SpellsRow7() ensures Spells(Row(7), Surd(14, 1), Surd(7, 2)) {}
  lemma SpellsRow8() ensures Spells(Row(8), Surd(10, 3), Surd(15, 1)) {}
  lemma SpellsRow9() ensures Spells(Row(9), Surd(1, 6), Surd(2, 3)) {}
  lemma SpellsRow10() ensures Spells(Row(10), Surd(6, 3), Surd(12, 1)) {}
  lemma SpellsRow11() ensures Spells(Row(11), Surd(3, 10), Surd(3, 5)) {}
  lemma SpellsRow12() ensures Spells(Row(12), Surd(2, 5), Surd(4, 5)) {}
  lemma SpellsRow13() ensures Spells(Row(13), Surd(4, 7), Surd(4, 14)) {}
  lemma SpellsRow14() ensures Spells(Row(14), Surd(8, 2), Surd(4, 2)) {}
  lemma SpellsRow15() ensures Spells(Row(15), Surd(2, 21), Surd(4, 7)) {}

  /** Every row's texts spell the surds listed for it. */
  lemma CatalogSpelled()
    ensures forall i :: 0 <= i < |Problems| ==> Spells(Problems[i], GivenSurds[i], AnswerSurds[i])
  {
    CatalogShape();
    SpellsRow0(); SpellsRow1(); SpellsRow2(); SpellsRow3();
    SpellsRow4(); SpellsRow5(); SpellsRow6(); SpellsRow7();
    SpellsRow8(); SpellsRow9(); SpellsRow10(); SpellsRow11();
    SpellsRow12(); SpellsRow13(); SpellsRow14(); SpellsRow15();
  }

  /** Every given length and every answer in the catalog parses to the
      number it is meant to be; in particular no answer is unparseable. */
  lemma CatalogParses()
    ensures forall i :: 0 <= i < |Problems| ==>
      Radical.ParseRadical(Problems[i].given[0].1) == Radical.Val(GivenSurds[i].coef as real, GivenSurds[i].radicand)
    ensures forall i :: 0 <= i < |Problems| ==>
      Radical.ParseRadical(Problems[i].answer) == Radical.Val(AnswerSurds[i].coef as real, AnswerSurds[i].radicand)
  {
    CatalogSpelled();
    CatalogSurdsOk();
    forall i | 0 <= i < |Problems|
      ensures Radical.ParseRadical(Problems[i].given[0].1) == Radical.Val(GivenSurds[i].coef as real, GivenSurds[i].radicand)
      ensures Radical.ParseRadical(Problems[i].answer) == Radical.Val(AnswerSurds[i].coef as real, AnswerSurds[i].radicand)
    {
      ProblemParses(Problems[i], GivenSurds[i], AnswerSurds[i]);
    }
  }

  lemma ProblemParses(p: Problem, g: Surd, a: Surd)
    requires Spells(p, g, a) && SurdOk(g) && SurdOk(a)
    ensures Radical.ParseRadical(p.given[0].1) == Radical.Val(g.coef as real, g.radicand)
    ensures Radical.ParseRadical(p.answer) == Radical.Val(a.coef as real, a.radicand)
  {
    ParseSurdText(g);
    ParseSurdText(a);
  }

  /** Every surd the catalog uses is positive and well formed. */
  lemma CatalogSurdsOk()
    ensures forall i :: 0 <= i < |GivenSurds| ==> SurdOk(GivenSurds[i])
    ensures forall i :: 0 <= i < |AnswerSurds| ==> SurdOk(AnswerSurds[i])
  {
  }

  /** The square of a side of the unit triangle of each kind: legs 1 and
      hypotenuse √2 for 45-45-90; short leg 1, long leg √3 and hypotenuse 2
      for 30-60-90. None for a side the triangle does not have. */
  function UnitSideSquared(kind: Kind, side: Side): Option<nat> {
    match kind
    case IsoscelesRight =>
      if side in {Leg1, Leg} then Some(1)
      else if side in {Hyp, Hypotenuse} then Some(2)
      else None
    case HalfEquilateral =>
      if side == Short then Some(1)
      else if side == Long then Some(3)
      else if side in {Hyp, Hypotenuse} then Some(4)
      else None
  }

  /** `a` is the side `find` of a triangle whose side `key` is `g`: a / g is
      the ratio of those sides in the unit triangle, compared on squares
      (a² · unit(key)² = g² · unit(find)²). */
  predicate RatioHolds(kind: Kind, key: Side, find: Side, g: Surd, a: Surd) {
    && UnitSideSquared(kind, key).Some? && UnitSideSquared(kind, find).Some?
    && a.coef * a.coef * a.radicand * UnitSideSquared(kind, key).value
       == g.coef * g.coef * g.radicand * UnitSideSquared(kind, find).value
  }

  /** Every canonical answer is the length the special-triangle ratios give
      for the asked side. */
  lemma CatalogAnswersFollowRatios()
    ensures forall i :: 0 <= i < |Problems| ==>
      RatioHolds(Problems[i].kind, Problems[i].given[0].0, Problems[i].find, GivenSurds[i], AnswerSurds[i])
  {
    CatalogShape();
    forall i | 0 <= i < |Problems|
      ensures RatioHolds(Problems[i].kind, Problems[i].given[0].0, Problems[i].find, GivenSurds[i], AnswerSurds[i])
    {
      RowRatio(i);
    }
  }

  lemma RowRatio(i: nat)
    requires i < ProblemCount
    ensures RatioHolds(Row(i).kind, Row(i).given[0].0, Row(i).find, GivenSurds[i], AnswerSurds[i])
  {
  }
}

=== FILE: display.dfy ===
/**
 * What the page derives from the progress for display: the level badge
 * (`getLevel`), the cells of the mystery picture that the solved count
 * uncovers (`MysteryImage`), and the split of an answer text into the
 * coefficient and radicand that the radical renderer draws
 * (`formatRadical`).
 */
module Display {
  import opened Text
  import opened Shapes
  import opened Catalog

  /** The six badges, from the lowest to the highest. */
  datatype Level = ReadyToStart | MathExplorer | ShapeSolver | TrianglePro | GeometryWizard | TriangleLegend

  function Title(l: Level): string {
    match l
    case ReadyToStart => "Ready to Start"
    case MathExplorer => "Math Explorer"
    case ShapeSolver => "Shape Solver"
    case TrianglePro => "Triangle Pro"
    case GeometryWizard => "Geometry Wizard"
    case TriangleLegend => "TRIANGLE LEGEND"
  }

  function Color(l: Level): string {
    match l
    case ReadyToStart => "#556677"
    case MathExplorer => "#00ff88"
    case ShapeSolver => "#00f0ff"
    case TrianglePro => "#ff6644"
    case GeometryWizard => "#aa66ff"
    case TriangleLegend => "#ffcc00"
  }

  /** The position of a badge in the order above. */
  function Rank(l: Level): nat {
    match l
    case ReadyToStart => 0
    case MathExplorer => 1
    case ShapeSolver => 2
    case TrianglePro => 3
    case GeometryWizard => 4
    case TriangleLegend => 5
  }

  /** The solved counts at which the badges are earned. */
  const Thresholds: seq<int> := [1, 4, 8, 12, 16]

  /** `getLevel(solved.size)`: the badge's rank is the number of thresholds
      the count has reached. */
  function GetLevel(solved: int): (l: Level)
    ensures forall k :: 0 <= k < |Thresholds| ==> (Rank(l) > k <==> solved >= Thresholds[k])
  {
    if solved >= 16 then TriangleLegend
    else if solved >= 12 then GeometryWizard
    else if solved >= 8 then TrianglePro
    else if solved >= 4 then ShapeSolver
    else if solved >= 1 then MathExplorer
    else ReadyToStart
  }

  /** Solving more never lowers the badge. */
  lemma GetLevelMonotone(m: int, n: int)
    requires m <= n
    ensures Rank(GetLevel(m)) <= Rank(GetLevel(n))
  {
  }

  /** Each badge has its own title and its own colour. */
  lemma BadgeTextsDistinct(a: Level, b: Level)
    ensures Title(a) == Title(b) <==> a == b
    ensures Color(a) == Color(b) <==> a == b
  {
  }

  /** Two solved counts show the same badge title exactly when they reach
      the same thresholds. */
  lemma SameTitleIffSameThresholds(m: int, n: int)
    ensures Title(GetLevel(m)) == Title(GetLevel(n)) <==>
      forall k :: 0 <= k < |Thresholds| ==> (m >= Thresholds[k] <==> n >= Thresholds[k])
  {
    var a, b := GetLevel(m), GetLevel(n);
    BadgeTextsDistinct(a, b);
    if Rank(a) != Rank(b) {
      var k := if Rank(a) < Rank(b) then Rank(a) else Rank(b);
      assert (m >= Thresholds[k]) != (n >= Thresholds[k]);
    }
  }

  /** Finishing the catalog earns the top badge, and only that does. */
  lemma LegendIffComplete(solved: int)
    requires 0 <= solved <= ProblemCount
    ensures GetLevel(solved) == TriangleLegend <==> solved == ProblemCount
  {
  }

  /** One cell of the 4×4 mystery picture. */
  datatype Cell = Cell(row: nat, col: nat, idx: nat, revealed: bool)

  const GridSize: nat := 4

  /** The cells `MysteryImage` lays out, row by row: cell idx = 4·row + col
      is uncovered when fewer than idx + 1 problems are left unsolved, that
      is when idx < solvedCount. */
  method MysteryCells(solvedCount: int) returns (cells: seq<Cell>)
    ensures |cells| == GridSize * GridSize
    ensures forall k :: 0 <= k < |cells| ==>
      cells[k] == Cell(k / GridSize, k % GridSize, k, k < solvedCount)
  {
    cells := [];
    var row := 0;
    while row < GridSize
      invariant 0 <= row <= GridSize
      invariant |cells| == row * GridSize
      invariant forall k :: 0 <= k < |cells| ==>
        cells[k] == Cell(k / GridSize, k % GridSize, k, k < solvedCount)
    {
      var col := 0;
      while col < GridSize
        invariant 0 <= col <= GridSize
        invariant |cells| == row * GridSize + col
        invariant forall k :: 0 <= k < |cells| ==>
          cells[k] == Cell(k / GridSize, k % GridSize, k, k < solvedCount)
      {
        var idx := row * GridSize + col;
        assert idx / GridSize == row && idx % GridSize == col;
        cells := cells + [Cell(row, col, idx, idx < solvedCount)];
        col := col + 1;
      }
      row := row + 1;
    }
  }

  /** The number of uncovered cells. */
  function Uncovered(cells: seq<Cell>): nat {
    if cells == [] then 0
    else Uncovered(cells[..|cells| - 1]) + (if cells[|cells| - 1].revealed then 1 else 0)
  }

  /** Each solved problem uncovers one more cell, up to the whole picture. */
  lemma {:induction false} UncoveredCount(cells: seq<Cell>, solvedCount: int)
    requires forall k :: 0 <= k < |cells| ==> cells[k].revealed == (k < solvedCount)
    ensures Uncovered(cells) == if solvedCount <= 0 then 0 else if solvedCount >= |cells| then |cells| else solvedCount
  {
    if cells != [] {
      UncoveredCount(cells[..|cells| - 1], solvedCount);
    }
  }

  /** What the radical renderer draws for an answer text: nothing, a
      coefficient (possibly empty) before a root sign over the radicand, or
      the text as it is. */
  datatype Shown = NoText | RootForm(coeff: string, rad: string) | PlainForm(text: string)

  /** `formatRadical(str)`: only `\d*sqrt\(\d+\)` is drawn as a root; no
      sign, no `*`, no `√` and no white space is recognised, and the text
      is not normalised first. */
  function FormatRadical(str: string): (f: Shown)
    ensures f.NoText? <==> str == ""
    ensures f.RootForm? ==> AllDigits(f.coeff) && IsNumeral(f.rad) && str == f.coeff + "sqrt(" + f.rad + ")"
    ensures f.PlainForm? ==> f.text == str
  {
    if str == "" then NoText
    else
      var k := Span(str, IsDigit);
      match MatchRoot(str[k..], SqrtCall)
      case Some(rad) =>
        assert str == str[..k] + str[k..];
        RootForm(str[..k], rad)
      case None => PlainForm(str)
  }

  /** The split is the only one: a coefficient of digits and a numeral in
      the root come back as they were written. */
  lemma FormatRadicalSplits(coeff: string, rad: string)
    requires AllDigits(coeff) && IsNumeral(rad)
    ensures FormatRadical(coeff + "sqrt(" + rad + ")") == RootForm(coeff, rad)
  {
    var body := RootText(SqrtCall, rad);
    var str := coeff + body;
    assert coeff + "sqrt(" + rad + ")" == str;
    assert body[0] == 's';
    SpanOfJoin(coeff, body, IsDigit);
    assert str[|coeff|..] == body;
    assert str[..|coeff|] == coeff;
    MatchRootText(SqrtCall, rad);
  }

  /** How the catalog's answers are drawn: a whole number as it is, any
      other surd as its coefficient (none for 1) over its radicand. */
  lemma FormatSurdText(x: Surd)
    requires SurdOk(x)
    ensures x.radicand == 1 ==> FormatRadical(SurdText(x)) == PlainForm(NatText(x.coef))
    ensures x.radicand != 1 && x.coef == 1 ==> FormatRadical(SurdText(x)) == RootForm("", NatText(x.radicand))
    ensures x.radicand != 1 && x.coef != 1 ==>
      FormatRadical(SurdText(x)) == RootForm(NatText(x.coef), NatText(x.radicand))
  {
    if x.radicand == 1 {
      var s := NatText(x.coef);
      assert Span(s, IsDigit) == |s|;
      assert s[|s|..] == [];
    } else if x.coef == 1 {
      FormatRadicalSplits("", NatText(x.radicand));
      assert "" + "sqrt(" + NatText(x.radicand) + ")" == SurdText(x);
    } else {
      FormatRadicalSplits(NatText(x.coef), NatText(x.radicand));
    }
  }
}

=== FILE: hints.dfy ===
/**
 * The progressive hints (`getHint`): each kind of question has a list of
 * two or three hints, and the card shows the one the number of wrong
 * attempts points at, the last one once they run out, and a general
 * reminder when the question has no list at all.
 */
module Hints {
  import opened Wrappers
  import opened Catalog

  const Default: string := "Use the special right triangle ratios!"


  /** `given[key]` inside a template string: the length text, or
      `undefined` when the problem has no such given side. */
  function Show(given: seq<(Side, string)>, key: Side): (s: string)
    ensures s == "undefined" || exists i :: 0 <= i < |given| && given[i].0 == key && s == given[i].1
  {
    if given == [] then "undefined"
    else if given[0].0 == key then given[0].1
    else
      var rest := Show(given[1..], key);
      assert forall i :: 0 <= i < |given[1..]| ==> given[1..][i] == given[i + 1];
      rest
  }

  /** `Object.keys(given)[0]`. */
  function FirstKey(given: seq<(Side, string)>): Option<Side> {
    if given == [] then None else Some(given[0].0)
  }

  /** The questions the hint table covers. */
  datatype Question =
    | HypFromLeg | LegFromHyp
    | LongFromShort | HypFromShort | ShortFromLong | HypFromLong | ShortFromHyp | LongFromHyp

  /** Which branch of `getHint` a problem takes. The branches' conditions
      exclude each other, so at most one of them adds hints. */
  function Classify(kind: Kind, key: Option<Side>, find: Side): Option<Question> {
    match kind
    case IsoscelesRight =>
      if find == Hypotenuse then Some(HypFromLeg)
      else if find == Leg then Some(LegFromHyp)
      else None
    case HalfEquilateral =>
      if key == Some(Short) && find == Long then Some(LongFromShort)
      else if key == Some(Short) && find == Hypotenuse then Some(HypFromShort)
      else if key == Some(Long) && find == Short then Some(ShortFromLong)
      else if key == Some(Long) && find == Hypotenuse then Some(HypFromLong)
      else if key == Some(Hyp) && find == Short then Some(ShortFromHyp)
      else if key == Some(Hyp) && find == Long then Some(LongFromHyp)
      else None
  }

  /** The given side a question's second hint quotes. */
  function Quoted(q: Question): Side {
    match q
    case HypFromLeg => Leg1
    case LegFromHyp => Hyp
    case LongFromShort => Short
    case HypFromShort => Short
    case ShortFromLong => Long
    case HypFromLong => Long
    case ShortFromHyp => Hyp
    case LongFromHyp => Hyp
  }

  /** The first hint of each question: the rule to use. */
  function Opening(q: Question): (s: string)
    ensures s != []
  {
    match q
    case HypFromLeg => "In a 45-45-90 triangle, hypotenuse = leg \U{00D7} \U{221A}2"
    case LegFromHyp => "In a 45-45-90 triangle, each leg = hypotenuse \U{00F7} \U{221A}2"
    case LongFromShort => "Long leg = short leg \U{00D7} \U{221A}3"
    case HypFromShort => "Hypotenuse = short leg \U{00D7} 2"
    case ShortFromLong => "Short leg = long leg \U{00F7} \U{221A}3. Rationalize!"
    case HypFromLong => "First find the short leg (\U{00F7} \U{221A}3), then double it."
    case ShortFromHyp => "Short leg = hypotenuse \U{00F7} 2"
    case LongFromHyp => "Find the short leg (\U{00F7} 2), then multiply by \U{221A}3"
  }

  /** The second hint of each question, as the text before and after the
      quoted length (`${given.leg1}` and the like). */
  function Quoting(q: Question): (parts: (string, string))
    ensures parts.0 != []
  {
    match q
    case HypFromLeg => ("Multiply ", " by \U{221A}2")
    case LegFromHyp => ("Divide ", " by \U{221A}2, then rationalize")
    case LongFromShort => ("Multiply ", " by \U{221A}3")
    case HypFromShort => ("Double ", "")
    case ShortFromLong => ("Divide ", " by \U{221A}3, multiply top & bottom by \U{221A}3")
    case HypFromLong => ("Short = ", " \U{00F7} \U{221A}3 (rationalize!), then \U{00D7} 2")
    case ShortFromHyp => ("Just divide ", " by 2")
    case LongFromHyp => ("Short = ", " \U{00F7} 2, then long = short \U{00D7} \U{221A}3")
  }

  /** The third hint, which three of the questions have. */
  function Closing(q: Question): (s: Option<string>)
    ensures s.Some? ==> s.value != []
  {
    match q
    case HypFromLeg => Some("Remember: a\U{221A}b \U{00D7} \U{221A}2 = a\U{221A}(b\U{00D7}2). Simplify if possible!")
    case LegFromHyp => Some("To rationalize: multiply top and bottom by \U{221A}2")
    case ShortFromLong => Some("\U{221A}3 \U{00F7} \U{221A}3 = 1 and \U{221A}3 \U{00D7} \U{221A}3 = 3")
    case _ => None
  }

  /** The hints of a question, `v` being the quoted length, in the order
      `getHint` pushes them. */
  function Template(q: Question, v: string): (hints: seq<string>)
    ensures 2 <= |hints| <= 3
    ensures forall i :: 0 <= i < |hints| ==> hints[i] != []
    ensures hints[1] == Quoting(q).0 + v + Quoting(q).1
  {
    [Opening(q), Quoting(q).0 + v + Quoting(q).1]
      + (match Closing(q) case Some(t) => [t] case None => [])
  }

  /** The list `getHint` builds for a problem. */
  function HintList(p: Problem): seq<string> {
    match Classify(p.kind, FirstKey(p.given), p.find)
    case None => []
    case Some(q) => Template(q, Show(p.given, Quoted(q)))
  }

  /** The questions the hint table covers: a 45-45-90 triangle asking for
      the hypotenuse or a leg, and a 30-60-90 triangle asking for a side
      other than the one given. */
  predicate Covered(kind: Kind, key: Option<Side>, find: Side) {
    match kind
    case IsoscelesRight => find == Hypotenuse || find == Leg
    case HalfEquilateral =>
      || (key == Some(Short) && (find == Long || find == Hypotenuse))
      || (key == Some(Long) && (find == Short || find == Hypotenuse))
      || (key == Some(Hyp) && (find == Short || find == Long))
  }

  /** A question the table covers gets two or three hints, every one of
      them non-empty; any other gets none. */
  lemma HintListShape(p: Problem)
    ensures Covered(p.kind, FirstKey(p.given), p.find) ==> 2 <= |HintList(p)| <= 3
    ensures !Covered(p.kind, FirstKey(p.given), p.find) ==> HintList(p) == []
    ensures forall i :: 0 <= i < |HintList(p)| ==> HintList(p)[i] != ""
  {
  }

  /** `hints[Math.min(attempts, hints.length - 1)] || hints[hints.length - 1]
      || "Use the special right triangle ratios!"`. */
  function Pick(hints: seq<string>, attempts: nat): (h: string)
    ensures h != ""
    ensures h in hints || h == Default
  {
    var idx := if attempts < |hints| - 1 then attempts else |hints| - 1;
    if 0 <= idx && hints[idx] != "" then hints[idx]
    else if |hints| > 0 && hints[|hints| - 1] != "" then hints[|hints| - 1]
    else Default
  }

  /** With a list of non-empty hints, the attempts pick one entry, held at
      the last; with no list, the reminder shows. */
  lemma PickClamps(hints: seq<string>, attempts: nat)
    requires forall i :: 0 <= i < |hints| ==> hints[i] != ""
    ensures attempts < |hints| ==> Pick(hints, attempts) == hints[attempts]
    ensures attempts >= |hints| > 0 ==> Pick(hints, attempts) == hints[|hints| - 1]
    ensures hints == [] ==> Pick(hints, attempts) == Default
  {
  }

  /** `getHint(problem, attempts)`. */
  function GetHint(p: Problem, attempts: nat): (h: string)
    ensures h != ""
    ensures h in HintList(p) || h == Default
    ensures !Covered(p.kind, FirstKey(p.given), p.find) ==> h == Default
  {
    Pick(HintList(p), attempts)
  }

  /** Each wrong attempt moves one hint further, until the last one,
      which then stays. */
  lemma GetHintProgresses(p: Problem, attempts: nat)
    requires Covered(p.kind, FirstKey(p.given), p.find)
    ensures 2 <= |HintList(p)| <= 3
    ensures attempts < |HintList(p)| ==> GetHint(p, attempts) == HintList(p)[attempts]
    ensures attempts >= |HintList(p)| ==> GetHint(p, attempts) == HintList(p)[|HintList(p)| - 1]
  {
    HintListShape(p);
    PickClamps(HintList(p), attempts);
  }

  /** A question the table does not cover gets the general reminder. */
  lemma GetHintDefault(p: Problem, attempts: nat)
    requires !Covered(p.kind, FirstKey(p.given), p.find)
    ensures GetHint(p, attempts) == Default
  {
    HintListShape(p);
  }

  /** `v` occurs in `s`. */
  ghost predicate Mentions(s: string, v: string) {
    exists a: string, b: string :: a + v + b == s
  }

  lemma MentionsMiddle(a: string, v: string, b: string)
    ensures Mentions(a + v + b, v)
  {
  }

  /** A problem with one given length whose question the table covers and
      quotes that length sees it in its second hint. */
  lemma SecondHintQuotesGiven(p: Problem)
    requires |p.given| == 1
    requires Classify(p.kind, FirstKey(p.given), p.find).Some?
    requires p.given[0].0 == Quoted(Classify(p.kind, FirstKey(p.given), p.find).value)
    ensures |HintList(p)| >= 2 && Mentions(HintList(p)[1], p.given[0].1)
  {
    var q := Classify(p.kind, FirstKey(p.given), p.find).value;
    var v := p.given[0].1;
    assert Show(p.given, Quoted(q)) == v;
    MentionsMiddle(Quoting(q).0, v, Quoting(q).1);
  }

  /** Every catalog problem gets two or three hints, and its second hint
      quotes its given length. */
  lemma CatalogHints()
    ensures forall i :: 0 <= i < |Problems| ==>
      && |Problems[i].given| == 1
      && 2 <= |HintList(Problems[i])| <= 3
      && Mentions(HintList(Problems[i])[1], Problems[i].given[0].1)
  {
    CatalogShape();
    forall i | 0 <= i < |Problems|
      ensures |Problems[i].given| == 1
      ensures 2 <= |HintList(Problems[i])| <= 3
      ensures Mentions(HintList(Problems[i])[1], Problems[i].given[0].1)
    {
      RowClassified(i);
      HintListShape(Problems[i]);
      SecondHintQuotesGiven(Problems[i]);
    }
  }

  /** Every row asks a question the table covers, about the side its
      given length names. */
  lemma RowClassified(i: nat)
    requires i < ProblemCount
    ensures |Row(i).given| == 1
    ensures Classify(Row(i).kind, FirstKey(Row(i).given), Row(i).find).Some?
    ensures Row(i).given[0].0 == Quoted(Classify(Row(i).kind, FirstKey(Row(i).given), Row(i).find).value)
  {
  }
}

=== FILE: ordering.dfy ===
/**
 * The order the problem cards are laid out in (`problemOrder`) and the
 * shuffle button (`handleShuffle`): a Fisher–Yates shuffle of the catalog
 * indices when the list is in catalog order, and back to catalog order
 * when it is shuffled. `Math.random` is not modelled: the numbers it
 * returns are an input, one per step, in the order they are drawn.
 */
module Ordering {
  import opened Catalog

  /** `PROBLEMS.map((_, i) => i)` for a list of `n`. */
  function Identity(n: nat): (s: seq<int>)
    ensures |s| == n
    ensures forall i :: 0 <= i < n ==> s[i] == i
  {
    seq(n, i => i)
  }

  /** `Math.floor(r * (i + 1))` for a random number `r` in [0, 1): a
      position from 0 to `i`. */
  function Draw(r: real, i: nat): (j: nat)
    requires 0.0 <= r < 1.0
    ensures j <= i
  {
    ScaleBelow(r, i + 1);
    (r * (i + 1) as real).Floor
  }

  lemma ScaleBelow(r: real, m: nat)
    requires 0.0 <= r < 1.0 && m > 0
    ensures 0.0 <= r * m as real < m as real
  {
  }

  /** The random numbers a shuffle of `n` draws: one for each of the
      positions n - 1 down to 1, each in [0, 1). */
  predicate RandomsOk(n: nat, rand: seq<real>) {
    n - 1 <= |rand| && Unit(rand)
  }

  /** Every number lies in [0, 1), as `Math.random` returns. */
  predicate Unit(rs: seq<real>) {
    forall k :: 0 <= k < |rs| ==> 0.0 <= rs[k] < 1.0
  }

  /** `[order[i], order[j]] = [order[j], order[i]]`. */
  function Swap(s: seq<int>, i: nat, j: nat): (r: seq<int>)
    requires i < |s| && j < |s|
    ensures |r| == |s|
    ensures r[i] == s[j] && r[j] == s[i]
    ensures forall k :: 0 <= k < |s| && k != i && k != j ==> r[k] == s[k]
    ensures i == j ==> r == s
  {
    s[i := s[j]][j := s[i]]
  }

  /** Swapping two entries keeps the same entries. */
  lemma SwapPermutes(s: seq<int>, i: nat, j: nat)
    requires i < |s| && j < |s|
    ensures multiset(Swap(s, i, j)) == multiset(s)
  {
  }

  /** Swapping two entries keeps them all distinct. */
  lemma SwapNoDup(s: seq<int>, i: nat, j: nat)
    requires i < |s| && j < |s| && NoDup(s)
    ensures NoDup(Swap(s, i, j))
  {
    var r := Swap(s, i, j);
    forall a, b | 0 <= a < b < |s|
      ensures r[a] != r[b]
    {
      var fa := if a == i then j else if a == j then i else a;
      var fb := if b == i then j else if b == j then i else b;
      assert r[a] == s[fa] && r[b] == s[fb] && fa != fb;
    }
  }

  /** `ps` picks, for each position q from 1 to `i`, the place at or
      before it that the loop swaps with it (`ps[0]` is not read). */
  predicate PicksOk(i: nat, ps: seq<nat>) {
    i < |ps| && forall q :: 0 < q <= i ==> ps[q] <= q
  }

  /** The loop of `handleShuffle` run on `s` from position `i` down to 1,
      swapping position q with place `ps[q]`: a reference definition, one
      step per call. Places above `i` are never touched. */
  function Steps(s: seq<int>, i: nat, ps: seq<nat>): (t: seq<int>)
    requires i < |s| && PicksOk(i, ps)
    ensures |t| == |s|
    ensures forall q :: i < q < |s| ==> t[q] == s[q]
    decreases i
  {
    if i == 0 then s else Steps(Swap(s, i, ps[i]), i - 1, ps)
  }

  /** After the swap at position `i`, the place keeps the entry its pick
      names. */
  lemma StepsTop(s: seq<int>, i: nat, ps: seq<nat>)
    requires 0 < i < |s| && PicksOk(i, ps)
    ensures Steps(s, i, ps)[i] == s[ps[i]]
  {
  }

  /** Only the picks for positions 1..i matter. */
  lemma {:induction false} StepsAgree(s: seq<int>, i: nat, p1: seq<nat>, p2: seq<nat>)
    requires i < |s| && PicksOk(i, p1) && PicksOk(i, p2)
    requires forall q :: 0 < q <= i ==> p1[q] == p2[q]
    ensures Steps(s, i, p1) == Steps(s, i, p2)
    decreases i
  {
    if i > 0 {
      StepsAgree(Swap(s, i, p1[i]), i - 1, p1, p2);
    }
  }

  /** On distinct entries, two runs of the loop lay out the same order
      exactly when they pick the same places. */
  lemma {:induction false} StepsSameIff(s: seq<int>, i: nat, p1: seq<nat>, p2: seq<nat>)
    requires i < |s| && NoDup(s) && PicksOk(i, p1) && PicksOk(i, p2)
    ensures Steps(s, i, p1) == Steps(s, i, p2) <==> forall q :: 0 < q <= i ==> p1[q] == p2[q]
    decreases i
  {
    if i > 0 {
      if p1[i] == p2[i] {
        SwapNoDup(s, i, p1[i]);
        StepsSameIff(Swap(s, i, p1[i]), i - 1, p1, p2);
      } else {
        StepsTop(s, i, p1);
        StepsTop(s, i, p2);
        assert Steps(s, i, p1)[i] != Steps(s, i, p2)[i];
      }
    }
  }

  /** The loop only rearranges. */
  lemma {:induction false} StepsPermutes(s: seq<int>, i: nat, ps: seq<nat>)
    requires i < |s| && PicksOk(i, ps)
    ensures multiset(Steps(s, i, ps)) == multiset(s)
    decreases i
  {
    if i > 0 {
      SwapPermutes(s, i, ps[i]);
      StepsPermutes(Swap(s, i, ps[i]), i - 1, ps);
    }
  }

  /** Picks that name each position itself leave everything in place. */
  lemma {:induction false} StepsStayPut(s: seq<int>, i: nat, ps: seq<nat>)
    requires i < |s| && PicksOk(i, ps)
    requires forall q :: 0 < q <= i ==> ps[q] == q
    ensures Steps(s, i, ps) == s
    decreases i
  {
    if i > 0 {
      StepsStayPut(s, i - 1, ps);
    }
  }

  /** The places a shuffle of `n` swaps with, as `Math.floor` makes them
      from the draws: position q uses the draw `rand[n - 1 - q]`. */
  function Positions(n: nat, rand: seq<real>): (ps: seq<nat>)
    requires RandomsOk(n, rand)
    ensures |ps| == n
    ensures n > 0 ==> PicksOk(n - 1, ps) && ps[0] == 0
  {
    seq(n, q requires 0 <= q < n => if q == 0 then 0 else Draw(rand[n - 1 - q], q))
  }

  /** The order a shuffle of `n` lays out with the draws `rand`. */
  function FisherYates(n: nat, rand: seq<real>): (order: seq<int>)
    requires RandomsOk(n, rand)
    ensures |order| == n
  {
    if n == 0 then [] else Steps(Identity(n), n - 1, Positions(n, rand))
  }

  /** Two loops over the n indices lay out the same order exactly when
      their picks are the same. */
  lemma OrderSameIff(n: nat, p1: seq<nat>, p2: seq<nat>)
    requires 0 < n == |p1| == |p2| && PicksOk(n - 1, p1) && PicksOk(n - 1, p2)
    requires p1[0] == 0 == p2[0]
    ensures Steps(Identity(n), n - 1, p1) == Steps(Identity(n), n - 1, p2) <==> p1 == p2
  {
    StepsSameIff(Identity(n), n - 1, p1, p2);
  }

  /** Two shuffles lay out the same order exactly when they swap with the
      same places. With `ArrangementDraws`, the places picked and the
      arrangements correspond one to one, so draws that pick each place
      with equal chance give each arrangement with equal chance. */
  lemma SameOrderIffSamePositions(n: nat, r1: seq<real>, r2: seq<real>)
    requires RandomsOk(n, r1) && RandomsOk(n, r2)
    ensures FisherYates(n, r1) == FisherYates(n, r2) <==> Positions(n, r1) == Positions(n, r2)
  {
    if n > 0 {
      OrderSameIff(n, Positions(n, r1), Positions(n, r2));
    }
  }

  /** The first index of `x` among the first `m` entries of `s`. */
  function IndexOf(s: seq<int>, x: int, m: nat): (j: nat)
    requires m <= |s| && x in s[..m]
    ensures j < m && s[j] == x
  {
    if s[m - 1] == x then m - 1
    else
      assert s[..m] == s[..m - 1] + [s[m - 1]];
      IndexOf(s, x, m - 1)
  }

  /** Picks that make the loop turn `s` into `t`, when `t` rearranges the
      places 0..i of `s` and agrees with it above: at each position, the
      place now holding the entry `t` wants there. */
  function PicksFor(s: seq<int>, t: seq<int>, i: nat): (ps: seq<nat>)
    requires i < |s| == |t|
    requires multiset(s[..i + 1]) == multiset(t[..i + 1]) && s[i + 1..] == t[i + 1..]
    ensures |ps| == i + 1 && PicksOk(i, ps) && ps[0] == 0
    ensures Steps(s, i, ps) == t
    decreases i
  {
    PrefixHolds(s, t, i);
    if i == 0 then [0]
    else
      var j := IndexOf(s, t[i], i + 1);
      var u := Swap(s, i, j);
      SwapBelow(s, t, i, j);
      SwapAbove(s, t, i, j);
      var rest := PicksFor(u, t, i - 1);
      var ps := rest + [j];
      StepsAgree(u, i - 1, rest, ps);
      ps
  }

  /** The entry `t` wants at place `i` is among the places 0..i of `s`;
      with one place, `s` is `t`. */
  lemma PrefixHolds(s: seq<int>, t: seq<int>, i: nat)
    requires i < |s| == |t|
    requires multiset(s[..i + 1]) == multiset(t[..i + 1]) && s[i + 1..] == t[i + 1..]
    ensures t[i] in s[..i + 1]
    ensures i == 0 ==> s == t
  {
    assert t[..i + 1][i] == t[i];
    assert t[i] in multiset(s[..i + 1]);
    if i == 0 {
      assert s[..1] == [s[0]] && t[..1] == [t[0]];
      assert s == s[..1] + s[1..] && t == t[..1] + t[1..];
    }
  }

  /** After the swap that brings `t[i]` to place `i`, the places below `i`
      hold what `t` holds there, in some order. */
  lemma SwapBelow(s: seq<int>, t: seq<int>, i: nat, j: nat)
    requires 0 < i < |s| == |t| && j <= i && s[j] == t[i]
    requires multiset(s[..i + 1]) == multiset(t[..i + 1])
    ensures multiset(Swap(s, i, j)[..i]) == multiset(t[..i])
  {
    var u := Swap(s, i, j);
    assert u[..i + 1] == Swap(s[..i + 1], i, j);
    SwapPermutes(s[..i + 1], i, j);
    assert u[..i + 1] == u[..i] + [t[i]] && t[..i + 1] == t[..i] + [t[i]];
    Cancel(u[..i], t[..i], t[i]);
  }

  lemma Cancel(a: seq<int>, b: seq<int>, x: int)
    requires multiset(a + [x]) == multiset(b + [x])
    ensures multiset(a) == multiset(b)
  {
    var m := multiset{x};
    assert multiset(a) == multiset(a) + m - m;
    assert multiset(b) == multiset(b) + m - m;
  }

  /** After that swap, places `i` and above hold what `t` holds there. */
  lemma SwapAbove(s: seq<int>, t: seq<int>, i: nat, j: nat)
    requires 0 < i < |s| == |t| && j <= i && s[j] == t[i]
    requires s[i + 1..] == t[i + 1..]
    ensures Swap(s, i, j)[i..] == t[i..]
  {
    var u := Swap(s, i, j);
    assert u[i + 1..] == s[i + 1..];
    assert u[i..] == [u[i]] + u[i + 1..] && t[i..] == [t[i]] + t[i + 1..];
  }

  /** The number j / (i + 1) draws the place j. */
  lemma DrawOf(j: nat, i: nat)
    requires j <= i
    ensures 0.0 <= j as real / (i + 1) as real < 1.0
    ensures Draw(j as real / (i + 1) as real, i) == j
  {
    var r := j as real / (i + 1) as real;
    assert r * (i + 1) as real == j as real;
  }

  /** Draws that pick the places `ps` in a shuffle of `n`. */
  function DrawsOf(n: nat, ps: seq<nat>): (rand: seq<real>)
    requires 0 < n == |ps| && PicksOk(n - 1, ps) && ps[0] == 0
    ensures RandomsOk(n, rand)
    ensures Positions(n, rand) == ps
  {
    var rand := seq(n - 1, k requires 0 <= k < n - 1 => ps[n - 1 - k] as real / (n - k) as real);
    DrawsOfPick(n, ps, rand);
    rand
  }

  lemma DrawsOfPick(n: nat, ps: seq<nat>, rand: seq<real>)
    requires 0 < n == |ps| && PicksOk(n - 1, ps) && ps[0] == 0 && |rand| == n - 1
    requires forall k :: 0 <= k < n - 1 ==> rand[k] == ps[n - 1 - k] as real / (n - k) as real
    ensures RandomsOk(n, rand)
    ensures Positions(n, rand) == ps
  {
    forall q | 0 < q < n
      ensures 0.0 <= rand[n - 1 - q] < 1.0 && Draw(rand[n - 1 - q], q) == ps[q]
    {
      DrawOf(ps[q], q);
    }
  }

  /** Every arrangement of the n indices is the layout of some draws. */
  function ArrangementDraws(p: seq<int>, n: nat): (rand: seq<real>)
    requires IsArrangement(p, n)
    ensures RandomsOk(n, rand)
    ensures FisherYates(n, rand) == p
  {
    ArrangementCoversAll(p, n);
    if n == 0 then []
    else
      assert Identity(n)[..n] == Identity(n) && p[..n] == p;
      DrawsOf(n, PicksFor(Identity(n), p, n - 1))
  }

  /** The draws never move an entry: each one picks the position it is
      drawn for. */
  predicate StaysPut(n: nat, rand: seq<real>)
    requires RandomsOk(n, rand)
  {
    forall k :: 0 <= k < n - 1 ==> Draw(rand[k], n - 1 - k) == n - 1 - k
  }

  /** The picks a shuffle's draws make, position by position. */
  lemma PositionsDrawn(n: nat, rand: seq<real>)
    requires RandomsOk(n, rand)
    ensures forall q :: 0 < q < n ==> Positions(n, rand)[q] == Draw(rand[n - 1 - q], q)
    ensures StaysPut(n, rand) ==> forall q :: 0 < q < n ==> Positions(n, rand)[q] == q
  {
    if StaysPut(n, rand) {
      forall q | 0 < q < n
        ensures Positions(n, rand)[q] == q
      {
        assert Draw(rand[n - 1 - q], n - 1 - (n - 1 - q)) == n - 1 - (n - 1 - q);
      }
    }
  }

  /** What a shuffle lays out: an arrangement of the indices, whose last
      place holds the entry the first draw picked, and the catalog order
      when no draw moves an entry. */
  lemma FisherYatesFacts(n: nat, rand: seq<real>)
    requires RandomsOk(n, rand)
    ensures multiset(FisherYates(n, rand)) == multiset(Identity(n))
    ensures n >= 2 ==> FisherYates(n, rand)[n - 1] == Draw(rand[0], n - 1)
    ensures StaysPut(n, rand) ==> FisherYates(n, rand) == Identity(n)
  {
    if n > 0 {
      var ps := Positions(n, rand);
      PositionsDrawn(n, rand);
      StepsPermutes(Identity(n), n - 1, ps);
      if n >= 2 {
        StepsTop(Identity(n), n - 1, ps);
      }
      if StaysPut(n, rand) {
        StepsStayPut(Identity(n), n - 1, ps);
      }
    }
  }

  /** The loop of `handleShuffle`: from position n - 1 down to 1, swap the
      entry there with the one at a drawn position at or before it. It
      lays out what the reference definition does: an arrangement of the
      indices, whose last position keeps the index the first draw picked,
      and the catalog order when the draws never move an entry. */
  method Shuffle(n: nat, rand: seq<real>) returns (order: seq<int>)
    requires RandomsOk(n, rand)
    ensures |order| == n
    ensures multiset(order) == multiset(Identity(n))
    ensures n >= 2 ==> order[n - 1] == Draw(rand[0], n - 1)
    ensures StaysPut(n, rand) ==> order == Identity(n)
    ensures order == FisherYates(n, rand)
  {
    order := Identity(n);
    var i: int := n - 1;
    ghost var ps := Positions(n, rand);
    PositionsDrawn(n, rand);
    while i > 0
      invariant -1 <= i <= n - 1 && |order| == n
      invariant n > 0 ==> 0 <= i && Steps(order, i, ps) == FisherYates(n, rand)
    {
      var j := Draw(rand[n - 1 - i], i);
      assert j == ps[i];
      order := Swap(order, i, j);
      i := i - 1;
    }
    FisherYatesFacts(n, rand);
  }

  /** `s` lists each of the indices 0 to n - 1 exactly once. */
  predicate IsArrangement(s: seq<int>, n: nat) {
    multiset(s) == multiset(Identity(n))
  }

  /** An arrangement names every catalog position once and nothing else. */
  lemma ArrangementCoversAll(s: seq<int>, n: nat)
    requires IsArrangement(s, n)
    ensures |s| == n
    ensures forall k :: 0 <= k < |s| ==> 0 <= s[k] < n
    ensures forall i :: 0 <= i < n ==> i in s
    ensures forall a, b :: 0 <= a < b < |s| ==> s[a] != s[b]
  {
    assert |s| == |multiset(s)| == |multiset(Identity(n))| == n;
    forall k | 0 <= k < |s|
      ensures 0 <= s[k] < n
    {
      assert s[k] in multiset(Identity(n));
    }
    forall i | 0 <= i < n
      ensures i in s
    {
      assert Identity(n)[i] == i;
      assert i in multiset(Identity(n));
    }
    forall a, b | 0 <= a < b < |s|
      ensures s[a] != s[b]
    {
      if s[a] == s[b] {
        TwiceCounted(s, a, b);
        IdentityCounts(n, s[a]);
        assert false;
      }
    }
  }

  /** A value at two positions is counted twice. */
  lemma TwiceCounted(s: seq<int>, a: nat, b: nat)
    requires a < b < |s| && s[a] == s[b]
    ensures multiset(s)[s[a]] >= 2
  {
    var x := s[a];
    assert s == s[..a] + [x] + s[a + 1..b] + [x] + s[b + 1..];
  }

  /** The catalog order counts each of its indices once. */
  lemma {:induction false} IdentityCounts(n: nat, x: int)
    ensures multiset(Identity(n))[x] == if 0 <= x < n then 1 else 0
  {
    if n > 0 {
      IdentityCounts(n - 1, x);
      assert Identity(n) == Identity(n - 1) + [n - 1];
    }
  }

  /** The layout state: whether the list is shuffled, and the catalog
      index shown at each place. */
  datatype Layout = Layout(shuffled: bool, order: seq<int>)

  /** The layout the page opens with. */
  const Unshuffled: Layout := Layout(false, Identity(ProblemCount))

  /** The layouts the button can reach from the opening one: each lists
      every problem once, and an unshuffled one is the catalog order. */
  predicate Reachable(l: Layout) {
    IsArrangement(l.order, ProblemCount) && (!l.shuffled ==> l == Unshuffled)
  }

  /** `handleShuffle`: a shuffled list goes back to catalog order, any
      other is shuffled; the flag flips either way. */
  method HandleShuffle(l: Layout, rand: seq<real>) returns (m: Layout)
    requires RandomsOk(ProblemCount, rand)
    ensures m.shuffled == !l.shuffled
    ensures l.shuffled ==> m == Unshuffled
    ensures !l.shuffled ==> IsArrangement(m.order, ProblemCount)
    ensures !l.shuffled ==> m.order == FisherYates(ProblemCount, rand)
    ensures !l.shuffled ==> m.order[ProblemCount - 1] == Draw(rand[0], ProblemCount - 1)
    ensures Reachable(m)
  {
    if l.shuffled {
      m := Layout(false, Identity(ProblemCount));
    } else {
      var order := Shuffle(ProblemCount, rand);
      m := Layout(true, order);
    }
  }

  /** Pressing twice from the catalog order comes back to it, whatever
      the shuffle in between drew, and from a shuffled list ends shuffled
      again. */
  method ShuffleTwice(l: Layout, first: seq<real>, second: seq<real>) returns (m: Layout)
    requires Reachable(l)
    requires RandomsOk(ProblemCount, first) && RandomsOk(ProblemCount, second)
    ensures m.shuffled == l.shuffled
    ensures !l.shuffled ==> m == l
  {
    var mid := HandleShuffle(l, first);
    m := HandleShuffle(mid, second);
  }

  /** `problemOrder.map(orderIdx => PROBLEMS[orderIdx])`: the ids of the
      cards in the order they are laid out. */
  function CardIds(order: seq<int>): (ids: seq<int>)
    requires forall k :: 0 <= k < |order| ==> 0 <= order[k] < ProblemCount
    ensures |ids| == |order|
  {
    CatalogShape();
    seq(|order|, k requires 0 <= k < |order| => Problems[order[k]].id)
  }

  /** In every layout the button can reach, each problem has exactly one
      card. */
  lemma EveryProblemOnce(l: Layout)
    requires Reachable(l)
    ensures forall k :: 0 <= k < |l.order| ==> 0 <= l.order[k] < ProblemCount
    ensures forall id :: 1 <= id <= ProblemCount ==> id in CardIds(l.order)
    ensures forall a, b :: 0 <= a < b < |l.order| ==> CardIds(l.order)[a] != CardIds(l.order)[b]
  {
    ArrangementCoversAll(l.order, ProblemCount);
    CatalogShape();
    var ids := CardIds(l.order);
    forall id | 1 <= id <= ProblemCount
      ensures id in ids
    {
      assert id - 1 in l.order;
      var k :| 0 <= k < |l.order| && l.order[k] == id - 1;
      assert ids[k] == id;
    }
  }
}

=== FILE: radical.dfy ===
/**
 * The answer parser (`parseRadical`) and the answer checker (`checkAnswer`).
 *
 * A parsed answer keeps its coefficient and its radicand apart, `Val(c, n)`
 * standing for c·√n (plain numbers have radicand 1). Square roots are never
 * computed: acceptance, |u − c| < 1/1000, is decided exactly with rational
 * arithmetic on squares, and `CloseIsWithinTolerance` proves that decision
 * equal to the real-number comparison for every choice of the square roots.
 */
module Radical {
  import opened Text
  import opened Shapes
  import Wrappers

  /** What the parser produces: no value (`null`), a radical value, or the
      `NaN` that `parseFloat` yields for a coefficient without digits. */
  datatype Parsed = None | Val(coef: real, radicand: nat) | NaN

  /** What `parseFloat` makes of a coefficient capture. */
  datatype Number = Num(value: real) | NotANumber

  /** The value of a decimal with at least one digit. */
  function DecimalValue(d: Decimal): real
    requires DecimalOk(d)
  {
    (if d.negative then -1.0 else 1.0) * (DigitsValue(d.whole) as real + FractionValue(d.fraction))
  }

  /** `parseFloat` of a capture of `-?\d*\.?\d*`: the capture itself is the
      longest numeric prefix, so the result is its value, or `NaN` when it
      holds no digit (`""`, `"-"`, `"."`, `"-."`). */
  function ParseFloat(d: Decimal): Number
    requires DecimalOk(d)
  {
    if d.whole == [] && d.fraction == [] then NotANumber else Num(DecimalValue(d))
  }

  /** Coefficient rule of the `sqrt(...)` form: empty means 1, a lone `-`
      means -1. */
  function SqrtCallCoefficient(d: Decimal): Number
    requires DecimalOk(d)
  {
    var g := DecimalText(d);
    if g == "" || g == "-" then (if g == "-" then Num(-1.0) else Num(1.0)) else ParseFloat(d)
  }

  /** Coefficient rule of the `√N` form: empty means 1; a lone `-` is left
      to `parseFloat`. */
  function RadicalSignCoefficient(d: Decimal): Number
    requires DecimalOk(d)
  {
    if DecimalText(d) == "" then Num(1.0) else ParseFloat(d)
  }

  /** `coeff * Math.sqrt(radicand)`, kept symbolic. */
  function Times(n: Number, radicand: nat): Parsed {
    match n
    case Num(c) => Val(c, radicand)
    case NotANumber => NaN
  }

  /** `parseRadical`. */
  function ParseRadical(s: string): (r: Parsed)
    ensures s == "" ==> r == None
    ensures r != None ==> Recognized(Normalize(s))
  {
    if s == "" then None
    else
      var t := Normalize(s);
      match MatchPlain(t)
      case Some(d) =>
        assert PlainOk(d) && DecimalText(d) == t;
        Val(DecimalValue(d), 1)
      case None =>
        match MatchRadical(t, SqrtCall)
        case Some(x) =>
          assert RadicalOk(x) && RadicalRender(x) == t;
          Times(SqrtCallCoefficient(x.coef), DigitsValue(x.radicand))
        case None =>
          match MatchRadical(t, RadicalSign)
          case Some(x) =>
            assert RadicalOk(x) && RadicalRender(x) == t;
            Times(RadicalSignCoefficient(x.coef), DigitsValue(x.radicand))
          case None => None
  }

  /** The normalised text has one of the three accepted shapes. */
  ghost predicate Recognized(t: string) {
    || (exists d :: PlainOk(d) && DecimalText(d) == t)
    || (exists x :: RadicalOk(x) && RadicalRender(x) == t)
  }

  /** The parser gives up exactly on texts that, once white space is dropped
      and letters lower-cased, have none of the three shapes. */
  lemma ParseFailsIffUnrecognized(s: string)
    ensures ParseRadical(s) == None <==> !Recognized(Normalize(s))
  {
    if Recognized(Normalize(s)) {
      RecognizedIsParsed(s);
    }
  }

  /** A missing, empty or all-blank input has no value. */
  lemma BlankIsNull(s: string)
    requires IsBlank(s)
    ensures ParseRadical(s) == None
  {
    if s != "" {
      var t := Normalize(s);
      if MatchPlain(t).Some? {
        DecimalTextClean(MatchPlain(t).value);
      }
      if MatchRadical(t, SqrtCall).Some? {
        RadicalRenderClean(MatchRadical(t, SqrtCall).value);
      }
      if MatchRadical(t, RadicalSign).Some? {
        RadicalRenderClean(MatchRadical(t, RadicalSign).value);
      }
    }
  }

  lemma RecognizedIsParsed(s: string)
    requires Recognized(Normalize(s))
    ensures ParseRadical(s) != None
  {
    var t := Normalize(s);
    if exists d :: PlainOk(d) && DecimalText(d) == t {
      var d :| PlainOk(d) && DecimalText(d) == t;
      PlainIsParsed(s, d);
    } else {
      var x :| RadicalOk(x) && RadicalRender(x) == t;
      RadicalIsParsed(s, x);
    }
  }

  lemma PlainIsParsed(s: string, d: Decimal)
    requires PlainOk(d) && DecimalText(d) == Normalize(s)
    ensures ParseRadical(s) == Val(DecimalValue(d), 1)
  {
    ParseIgnoresSpaceAndCase(s);
    ParsePlainDecimal(d);
  }

  lemma RadicalIsParsed(s: string, x: RadicalText)
    requires RadicalOk(x) && RadicalRender(x) == Normalize(s)
    ensures ParseRadical(s) != None
  {
    ParseIgnoresSpaceAndCase(s);
    ParseRadicalText(x);
  }

  /** Only the normalised text matters, so white space is ignored; with
      `ParseIgnoresCase`, `" 4 SQRT(3) "` parses like `"4sqrt(3)"`. */
  lemma ParseIgnoresSpaceAndCase(s: string)
    ensures ParseRadical(s) == ParseRadical(Normalize(s))
  {
    NormalizeIdempotent(s);
  }

  /** Texts that differ only in the case of their letters parse alike. */
  lemma ParseIgnoresCase(s: string, u: string)
    requires |s| == |u|
    requires forall i :: 0 <= i < |s| ==> Lower(s[i]) == Lower(u[i])
    ensures ParseRadical(s) == ParseRadical(u)
  {
    ParseIgnoresSpaceAndCase(s);
    ParseIgnoresSpaceAndCase(u);
    NormalizeIgnoresCase(s, u);
  }

  lemma DecimalTextClean(d: Decimal)
    requires DecimalOk(d)
    ensures IsClean(DecimalText(d))
  {
    DecimalTextChars(d);
  }

  lemma RadicalRenderClean(x: RadicalText)
    requires RadicalOk(x)
    ensures IsClean(RadicalRender(x))
    ensures RadicalRender(x) != ""
  {
    DecimalTextClean(x.coef);
    var g := DecimalText(x.coef);
    var star := if x.star then "*" else "";
    var body := RootText(x.root, x.radicand);
    assert IsClean(star);
    RootTextClean(x.root, x.radicand);
    CleanJoin(g, star);
    CleanJoin(g + star, body);
  }

  lemma RootTextClean(root: Root, radicand: string)
    requires IsNumeral(radicand)
    ensures IsClean(RootText(root, radicand))
  {
    var body := RootText(root, radicand);
    match root
    case SqrtCall =>
      assert body == "sqrt(" + radicand + ")";
      assert IsClean("sqrt(") && IsClean(")");
    case RadicalSign =>
      assert body == [RadicalGlyph] + radicand;
  }

  lemma CleanJoin(a: string, b: string)
    requires IsClean(a) && IsClean(b)
    ensures IsClean(a + b)
  {
    assert forall i :: 0 <= i < |a + b| ==> (a + b)[i] == if i < |a| then a[i] else b[i - |a|];
  }

  /** A plain signed decimal is its own value. */
  lemma ParsePlainDecimal(d: Decimal)
    requires PlainOk(d)
    ensures ParseRadical(DecimalText(d)) == Val(DecimalValue(d), 1)
  {
    DecimalTextClean(d);
    NormalizeFixesClean(DecimalText(d));
    MatchPlainText(d);
  }

  /** Parsing a radical text: the plain shape fails on it and its own root
      matcher returns its parts. */
  lemma ParseRadicalText(x: RadicalText)
    requires RadicalOk(x)
    ensures x.root == SqrtCall ==>
      ParseRadical(RadicalRender(x)) == Times(SqrtCallCoefficient(x.coef), DigitsValue(x.radicand))
    ensures x.root == RadicalSign ==>
      ParseRadical(RadicalRender(x)) == Times(RadicalSignCoefficient(x.coef), DigitsValue(x.radicand))
  {
    RadicalRenderClean(x);
    NormalizeFixesClean(RadicalRender(x));
    RadicalNotPlain(x);
    MatchRadicalRender(x);
    if x.root == RadicalSign {
      RootsDisjoint(x, SqrtCall);
    }
  }

  /** Coefficient defaults of the `sqrt(...)` form. */
  lemma SqrtCallDefaults(x: RadicalText)
    requires RadicalOk(x) && x.root == SqrtCall
    ensures DecimalText(x.coef) == "" ==> ParseRadical(RadicalRender(x)) == Val(1.0, DigitsValue(x.radicand))
    ensures DecimalText(x.coef) == "-" ==> ParseRadical(RadicalRender(x)) == Val(-1.0, DigitsValue(x.radicand))
    ensures DecimalText(x.coef) in {".", "-."} ==> ParseRadical(RadicalRender(x)) == NaN
    ensures x.coef.whole + x.coef.fraction != [] ==>
      ParseRadical(RadicalRender(x)) == Val(DecimalValue(x.coef), DigitsValue(x.radicand))
  {
    ParseRadicalText(x);
    CoefficientTextCases(x.coef);
  }

  /** Coefficient defaults of the `√N` form: a lone `-` is not special. */
  lemma RadicalSignDefaults(x: RadicalText)
    requires RadicalOk(x) && x.root == RadicalSign
    ensures DecimalText(x.coef) == "" ==> ParseRadical(RadicalRender(x)) == Val(1.0, DigitsValue(x.radicand))
    ensures DecimalText(x.coef) in {"-", ".", "-."} ==> ParseRadical(RadicalRender(x)) == NaN
    ensures x.coef.whole + x.coef.fraction != [] ==>
      ParseRadical(RadicalRender(x)) == Val(DecimalValue(x.coef), DigitsValue(x.radicand))
  {
    ParseRadicalText(x);
    CoefficientTextCases(x.coef);
  }

  /** The texts of coefficients without digits are exactly `""`, `"-"`,
      `"."` and `"-."`. */
  lemma CoefficientTextCases(d: Decimal)
    requires DecimalOk(d)
    ensures d.whole + d.fraction == [] <==> DecimalText(d) in {"", "-", ".", "-."}
  {
    var g := DecimalText(d);
    if d.whole + d.fraction != [] {
      var sign := if d.negative then "-" else "";
      var dot := if d.point then "." else "";
      var i := if d.whole != [] then |sign| else |sign| + |dot|;
      assert g == sign + d.whole + dot + d.fraction;
      assert IsDigit(g[i]);
      assert forall w :: w in {"", "-", ".", "-."} ==> forall j :: 0 <= j < |w| ==> !IsDigit(w[j]);
    } else {
      assert d.whole == [] && d.fraction == [];
      if d.negative && d.point {
        assert g == "-.";
      } else if d.negative {
        assert g == "-";
      } else if d.point {
        assert g == ".";
      } else {
        assert g == "";
      }
    }
  }

  /** Integers read back as themselves. */
  lemma ParseInteger(n: int)
    ensures ParseRadical(IntText(n)) == Val(n as real, 1)
  {
    var d := IntDecimal(n);
    ParsePlainDecimal(d);
  }

  /** The parts of the decimal rendering of an integer. */
  function IntDecimal(n: int): (d: Decimal)
    ensures PlainOk(d) && !d.point
    ensures DecimalText(d) == IntText(n)
    ensures DecimalValue(d) == n as real
  {
    var m: nat := if n < 0 then -n else n;
    var d := Decimal(n < 0, NatText(m), false, "");
    assert DecimalText(d) == (if n < 0 then "-" else "") + NatText(m);
    NatTextValue(m);
    assert FractionValue("") == 0.0;
    d
  }

  /** `"{c}sqrt({r})"` reads back as c·√r for every integer c. */
  lemma ParseIntegerTimesSqrt(c: int, r: nat)
    ensures ParseRadical(IntText(c) + "sqrt(" + NatText(r) + ")") == Val(c as real, r)
  {
    var x := RadicalText(IntDecimal(c), false, SqrtCall, NatText(r));
    IntTimesSqrtText(c, r);
    NatTextValue(r);
    SqrtCallDefaults(x);
  }

  lemma IntTimesSqrtText(c: int, r: nat)
    ensures RadicalRender(RadicalText(IntDecimal(c), false, SqrtCall, NatText(r)))
         == IntText(c) + "sqrt(" + NatText(r) + ")"
  {
  }

  /** `"sqrt({r})"` and `"-sqrt({r})"` read as ±√r. */
  lemma ParseBareSqrtCall(r: nat)
    ensures ParseRadical("sqrt(" + NatText(r) + ")") == Val(1.0, r)
    ensures ParseRadical("-sqrt(" + NatText(r) + ")") == Val(-1.0, r)
  {
    NatTextValue(r);
    var a := RadicalText(Decimal(false, "", false, ""), false, SqrtCall, NatText(r));
    var b := RadicalText(Decimal(true, "", false, ""), false, SqrtCall, NatText(r));
    BareRootTexts(r);
    SqrtCallDefaults(a);
    SqrtCallDefaults(b);
  }

  /** `"√{r}"` reads as √r, but `"-√{r}"` as `NaN`. */
  lemma ParseBareRadicalSign(r: nat)
    ensures ParseRadical([RadicalGlyph] + NatText(r)) == Val(1.0, r)
    ensures ParseRadical("-" + [RadicalGlyph] + NatText(r)) == NaN
  {
    NatTextValue(r);
    var a := RadicalText(Decimal(false, "", false, ""), false, RadicalSign, NatText(r));
    var b := RadicalText(Decimal(true, "", false, ""), false, RadicalSign, NatText(r));
    BareRootTexts(r);
    RadicalSignDefaults(a);
    assert DecimalText(b.coef) == "-";
    RadicalSignDefaults(b);
  }

  lemma BareRootTexts(r: nat)
    ensures RadicalRender(RadicalText(Decimal(false, "", false, ""), false, SqrtCall, NatText(r)))
         == "sqrt(" + NatText(r) + ")"
    ensures RadicalRender(RadicalText(Decimal(true, "", false, ""), false, SqrtCall, NatText(r)))
         == "-sqrt(" + NatText(r) + ")"
    ensures RadicalRender(RadicalText(Decimal(false, "", false, ""), false, RadicalSign, NatText(r)))
         == [RadicalGlyph] + NatText(r)
    ensures RadicalRender(RadicalText(Decimal(true, "", false, ""), false, RadicalSign, NatText(r)))
         == "-" + [RadicalGlyph] + NatText(r)
  {
    var n := NatText(r);
    BareRootText(false, SqrtCall, n);
    BareRootText(true, SqrtCall, n);
    BareRootText(false, RadicalSign, n);
    BareRootText(true, RadicalSign, n);
    assert "-" + ("sqrt(" + n + ")") == "-sqrt(" + n + ")";
    assert "-" + ([RadicalGlyph] + n) == "-" + [RadicalGlyph] + n;
  }

  /** A root with no coefficient is its sign, if any, before the root. */
  lemma BareRootText(negative: bool, form: Root, n: string)
    ensures RadicalRender(RadicalText(Decimal(negative, "", false, ""), false, form, n))
         == (if negative then "-" else "") + RootText(form, n)
  {
    assert DecimalText(Decimal(negative, "", false, "")) == if negative then "-" else "";
  }
}

=== FILE: scoring.dfy ===
/**
 * Points for a solved problem: the base points of its difficulty, a bonus
 * of half the base on a first try, and a streak bonus of 30% of the base
 * from the fifth solve in a row on (15% from the third). `Math.round` of a
 * non-negative product is rounding half up, which on whole percentages is
 * exact integer arithmetic.
 */
module Scoring {
  import opened Catalog

  /** `Math.round(base * pct / 100)` for non-negative operands: the nearest
      whole number, a half rounding up. */
  function RoundPercent(base: nat, pct: nat): (r: nat)
    ensures 100 * r <= base * pct + 50 < 100 * r + 100
  {
    (base * pct + 50) / 100
  }

  /** Half the base, rounded, when the problem was solved with no wrong
      attempt before. */
  function FirstTryBonus(base: nat, attempts: nat): (b: nat)
    ensures attempts == 0 ==> b == base / 2 + base % 2
    ensures attempts > 0 ==> b == 0
  {
    if attempts == 0 then RoundPercent(base, 50) else 0
  }

  /** The bonus for the streak the solve brings about (`streak` counts this
      solve). */
  function StreakBonus(base: nat, streak: nat): (b: nat)
    ensures streak < 3 ==> b == 0
    ensures 3 <= streak < 5 ==> 100 * b <= 15 * base + 50 < 100 * b + 100
    ensures streak >= 5 ==> 100 * b <= 30 * base + 50 < 100 * b + 100
  {
    if streak >= 5 then RoundPercent(base, 30)
    else if streak >= 3 then RoundPercent(base, 15)
    else 0
  }

  /** The points a solve awards. */
  function Points(base: nat, attempts: nat, streak: nat): (p: nat)
    ensures base <= p <= 2 * base
    ensures attempts == 0 && base > 0 ==> p > base
  {
    base + FirstTryBonus(base, attempts) + StreakBonus(base, streak)
  }

  /** A longer streak never earns a smaller bonus. */
  lemma StreakBonusMonotone(base: nat, s: nat, t: nat)
    requires s <= t
    ensures StreakBonus(base, s) <= StreakBonus(base, t)
  {
  }

  /** The rounded bonuses for the four base values of `POINTS_MAP`,
      among them 53 for 15% of 350 (52.5 rounds up). */
  lemma BonusTable(d: int)
    requires 1 <= d <= 4
    ensures RoundPercent(PointsMap(d).value, 50) == [50, 100, 175, 250][d - 1]
    ensures RoundPercent(PointsMap(d).value, 30) == [30, 60, 105, 150][d - 1]
    ensures RoundPercent(PointsMap(d).value, 15) == [15, 30, 53, 75][d - 1]
  {
  }
}

=== FILE: session.dfy ===
/**
 * The progress of a session (`solved`, `score`, `streak`, `bestStreak` in
 * `App`) and the three actions that change it: `handleSolve`,
 * `handleWrongAnswer` and `handleReset`. Each action is one atomic step
 * from a state to a state. The saved snapshot (`saveProgress` /
 * `loadProgress`) is modelled as a value; reading and writing the browser's
 * storage is not.
 */
module Session {
  import opened Wrappers
  import opened Catalog
  import opened Scoring

  /** `solved` is a `Set` of problem ids, which remembers insertion order;
      it is kept as the sequence of ids in that order. */
  datatype Progress = Progress(solved: seq<int>, score: int, streak: nat, bestStreak: int)

  /** The state of a new session, and the state `handleReset` returns to. */
  const Fresh: Progress := Progress([], 0, 0, 0)

  function Max(a: int, b: int): int {
    if a >= b then a else b
  }

  /** `set.add(x)`: appended at the end unless already there. */
  function Add(s: seq<int>, x: int): (t: seq<int>)
    ensures forall y :: y in t <==> y in s || y == x
    ensures x in s ==> t == s
    ensures x !in s ==> |t| == |s| + 1 && t[..|s|] == s && t[|s|] == x
    ensures NoDup(s) ==> NoDup(t)
  {
    if x in s then s else s + [x]
  }

  /** The states a session can be in: no id twice, only catalog ids, a
      non-negative score and a best streak at least the current one. */
  predicate Valid(p: Progress) {
    && NoDup(p.solved)
    && (forall id :: id in p.solved ==> 1 <= id <= ProblemCount)
    && p.score >= 0
    && p.streak <= p.bestStreak
  }

  /** `POINTS_MAP[problem.difficulty]` for the problem with this id. */
  function BasePoints(id: int): (base: nat)
    requires 1 <= id <= ProblemCount
    ensures base in {100, 200, 350, 500}
    ensures PointsMap(Problems[id - 1].difficulty) == Some(base)
  {
    FoundAt(id);
    PointsMap(FindProblem(id).value.difficulty).value
  }

  /** `handleSolve(id, attempts)`: the id joins `solved`, the streak grows
      by one, the best streak follows it, and the score grows by the points
      for the problem's difficulty, the attempts and the new streak. The id
      comes from a problem card, so it is always one of the catalog's. */
  function Solve(p: Progress, id: int, attempts: nat): (q: Progress)
    requires 1 <= id <= ProblemCount
    ensures id in q.solved
    ensures forall other :: other != id ==> (other in q.solved <==> other in p.solved)
    ensures |q.solved| <= |p.solved| + 1
    ensures NoDup(p.solved) ==> NoDup(q.solved)
    ensures q.streak == p.streak + 1
    ensures q.bestStreak >= p.bestStreak && q.bestStreak >= q.streak
    ensures q.bestStreak == p.bestStreak || q.bestStreak == q.streak
    ensures q.score == p.score + BasePoints(id) + FirstTryBonus(BasePoints(id), attempts) + StreakBonus(BasePoints(id), q.streak)
    ensures p.score + BasePoints(id) <= q.score <= p.score + 2 * BasePoints(id)
  {
    var streak := p.streak + 1;
    Progress(
      Add(p.solved, id),
      p.score + Points(BasePoints(id), attempts, streak),
      streak,
      Max(p.bestStreak, streak))
  }

  /** `handleWrongAnswer`: the streak is broken and nothing else changes. */
  function Wrong(p: Progress): (q: Progress)
    ensures q.streak == 0
    ensures q.solved == p.solved && q.score == p.score && q.bestStreak == p.bestStreak
  {
    p.(streak := 0)
  }

  /** `handleReset`: everything goes back to zero. */
  function Reset(p: Progress): (q: Progress)
    ensures q.solved == [] && q.score == 0 && q.streak == 0 && q.bestStreak == 0
  {
    Fresh
  }

  lemma SolvePreservesValid(p: Progress, id: int, attempts: nat)
    requires Valid(p) && 1 <= id <= ProblemCount
    ensures Valid(Solve(p, id, attempts))
  {
    var q := Solve(p, id, attempts);
    assert forall x :: x in q.solved ==> x == id || x in p.solved;
  }

  lemma WrongPreservesValid(p: Progress)
    requires Valid(p)
    ensures Valid(Wrong(p))
  {
  }

  lemma FreshIsValid()
    ensures Valid(Fresh) && Valid(Reset(Fresh))
  {
  }

  /** Difficulty 1, solved on the first try with no streak before: 100 base
      and 50 first-try bonus. */
  lemma FirstTryExample()
    ensures Solve(Fresh, 1, 0).score == 150
  {
    assert BasePoints(1) == 100 by {
      FoundAt(1);
      assert Problems[0] == Row(0);
    }
    BonusTable(1);
  }

  /** Difficulty 3 (problem 9), solved after one wrong try as the fifth in a
      row: 350 base and 105 streak bonus. */
  lemma StreakExample(p: Progress)
    requires p.streak == 4
    ensures Solve(p, 9, 1).score == p.score + 455
  {
    assert BasePoints(9) == 350 by {
      FoundAt(9);
      assert Problems[8] == Row(8);
    }
    BonusTable(3);
  }

  /** The drill is complete when `solved` holds as many ids as the catalog
      has problems (`next.size === 16`): in a valid state, exactly when
      every problem has been solved. */
  predicate Complete(p: Progress) {
    |p.solved| == ProblemCount
  }

  lemma CompleteIffAllSolved(p: Progress)
    requires Valid(p)
    ensures |p.solved| <= ProblemCount
    ensures Complete(p) <==> forall id :: 1 <= id <= ProblemCount ==> id in p.solved
  {
    FullIffAll(p.solved, ProblemCount);
  }

  /** Ids without repeats drawn from 1..n number at most n, and exactly n
      when every one of them occurs. */
  lemma FullIffAll(s: seq<int>, n: nat)
    requires NoDup(s) && forall x :: x in s ==> 1 <= x <= n
    ensures |s| <= n
    ensures |s| == n <==> forall x :: 1 <= x <= n ==> x in s
  {
    CardOfNoDup(s);
    CardOfRange(n);
    forall x | x in Elems(s)
      ensures x in Range(n)
    {
      InRange(n, x);
    }
    SubsetCard(Elems(s), Range(n));
    if |s| == n {
      SubsetOfSameSize(Elems(s), Range(n));
      forall x | 1 <= x <= n
        ensures x in s
      {
        InRange(n, x);
      }
    }
    if forall x :: 1 <= x <= n ==> x in s {
      forall x | x in Range(n)
        ensures x in Elems(s)
      {
        InRange(n, x);
      }
      assert Elems(s) == Range(n);
    }
  }

  /** The ids in `s`, as a set. */
  function Elems(s: seq<int>): set<int> {
    set x | x in s
  }

  /** The ids 1..n. */
  function Range(n: nat): set<int> {
    if n == 0 then {} else Range(n - 1) + {n}
  }

  lemma {:induction false} InRange(n: nat, x: int)
    ensures x in Range(n) <==> 1 <= x <= n
  {
    if n > 0 {
      InRange(n - 1, x);
    }
  }

  lemma {:induction false} CardOfNoDup(s: seq<int>)
    requires NoDup(s)
    ensures |Elems(s)| == |s|
  {
    if s != [] {
      var init := s[..|s| - 1];
      assert NoDup(init);
      CardOfNoDup(init);
      assert s == init + [s[|s| - 1]];
      assert Elems(s) == Elems(init) + {s[|s| - 1]};
      assert s[|s| - 1] !in Elems(init);
    }
  }

  lemma {:induction false} CardOfRange(n: nat)
    ensures |Range(n)| == n
  {
    if n > 0 {
      CardOfRange(n - 1);
      InRange(n - 1, n);
    }
  }

  lemma SubsetCard(a: set<int>, b: set<int>)
    requires a <= b
    ensures |a| <= |b|
  {
    assert a + (b - a) == b;
  }

  lemma SubsetOfSameSize(a: set<int>, b: set<int>)
    requires a <= b && |a| >= |b|
    ensures a == b
  {
    assert a + (b - a) == b;
    assert |b - a| == 0;
    forall x | x in b
      ensures x in a
    {
      assert x !in b - a;
    }
  }

  /** What the user can do to a session. */
  datatype Event = Solved(id: int, attempts: nat) | Missed | Cleared

  predicate EventOk(e: Event) {
    e.Solved? ==> 1 <= e.id <= ProblemCount
  }

  function Step(p: Progress, e: Event): Progress
    requires EventOk(e)
  {
    match e
    case Solved(id, attempts) => Solve(p, id, attempts)
    case Missed => Wrong(p)
    case Cleared => Reset(p)
  }

  /** The state after the events, in order. */
  function Run(p: Progress, es: seq<Event>): Progress
    requires forall i :: 0 <= i < |es| ==> EventOk(es[i])
  {
    if es == [] then p else Step(Run(p, es[..|es| - 1]), es[|es| - 1])
  }

  /** Every reachable state is valid. */
  lemma {:induction false} RunPreservesValid(p: Progress, es: seq<Event>)
    requires Valid(p)
    requires forall i :: 0 <= i < |es| ==> EventOk(es[i])
    ensures Valid(Run(p, es))
  {
    if es != [] {
      RunPreservesValid(p, es[..|es| - 1]);
      var q := Run(p, es[..|es| - 1]);
      match es[|es| - 1]
      case Solved(id, attempts) => SolvePreservesValid(q, id, attempts);
      case Missed => WrongPreservesValid(q);
      case Cleared => FreshIsValid();
    }
  }

  /** Without a reset, nothing solved is lost and neither the score nor the
      best streak ever goes down. */
  lemma {:induction false} RunMonotone(p: Progress, es: seq<Event>)
    requires forall i :: 0 <= i < |es| ==> EventOk(es[i]) && !es[i].Cleared?
    ensures var q := Run(p, es);
      && (forall id :: id in p.solved ==> id in q.solved)
      && q.score >= p.score
      && q.bestStreak >= p.bestStreak
  {
    if es != [] {
      RunMonotone(p, es[..|es| - 1]);
    }
  }

  /** The number of `Solved` events at the end of `es`. */
  function TrailingSolves(es: seq<Event>): (n: nat)
    ensures n <= |es|
  {
    if es == [] || !es[|es| - 1].Solved? then 0 else 1 + TrailingSolves(es[..|es| - 1])
  }

  /** The streak counts the correct answers since the last wrong answer or
      reset; with neither, it continues the streak it started from. */
  lemma {:induction false} RunStreak(p: Progress, es: seq<Event>)
    requires forall i :: 0 <= i < |es| ==> EventOk(es[i])
    ensures TrailingSolves(es) == |es| ==> Run(p, es).streak == p.streak + |es|
    ensures TrailingSolves(es) < |es| ==> Run(p, es).streak == TrailingSolves(es)
  {
    if es != [] {
      RunStreak(p, es[..|es| - 1]);
    }
  }

  /** What `saveProgress` stores and `loadProgress` reads back. A field
      missing or falsy in the stored JSON is `None`; a zero that `Save`
      writes is `Some(0)`. `|| 0` reads both as 0 (`OrZero`). */
  datatype Snapshot = Snapshot(solved: Option<seq<int>>, score: Option<int>, bestStreak: Option<int>)

  function OrZero(x: Option<int>): (n: int)
    ensures x.Some? ==> n == x.value
    ensures x.None? ==> n == 0
  {
    match x
    case Some(v) => v
    case None => 0
  }

  /** `saveProgress(solved, score, bestStreak)`; the streak is not kept. */
  function Save(p: Progress): (snap: Snapshot)
    ensures snap.solved == Some(p.solved)
    ensures OrZero(snap.score) == p.score && OrZero(snap.bestStreak) == p.bestStreak
  {
    Snapshot(Some(p.solved), Some(p.score), Some(p.bestStreak))
  }

  /** `new Set(array)`: the elements added one by one, so a repeated id is
      kept once, at its first position. */
  function Dedup(s: seq<int>): (t: seq<int>)
    ensures NoDup(t)
    ensures forall x :: x in t <==> x in s
    ensures |t| <= |s|
  {
    if s == [] then [] else Add(Dedup(s[..|s| - 1]), s[|s| - 1])
  }

  /** A sequence with no repeats is its own set. */
  lemma {:induction false} DedupOfNoDup(s: seq<int>)
    requires NoDup(s)
    ensures Dedup(s) == s
  {
    if s != [] {
      var init := s[..|s| - 1];
      assert NoDup(init);
      DedupOfNoDup(init);
      assert s[|s| - 1] !in init;
      assert s == init + [s[|s| - 1]];
    }
  }

  /** `loadProgress()`: nothing stored, unreadable JSON, or no `solved`
      field reads as `null`; otherwise the stored ids (repeats dropped),
      score and best streak, with a streak of 0. */
  function Load(stored: Option<Snapshot>): (r: Option<Progress>)
    ensures r.Some? <==> stored.Some? && stored.value.solved.Some?
    ensures r.Some? ==> r.value.streak == 0 && r.value.score == OrZero(stored.value.score)
    ensures r.Some? ==> r.value.bestStreak == OrZero(stored.value.bestStreak)
    ensures r.Some? ==> forall id :: id in r.value.solved <==> id in stored.value.solved.value
    ensures r.Some? ==> NoDup(r.value.solved)
  {
    match stored
    case None => None
    case Some(snap) =>
      match snap.solved
      case None => None
      case Some(ids) => Some(Progress(Dedup(ids), OrZero(snap.score), 0, OrZero(snap.bestStreak)))
  }

  /** The state `App` starts in. */
  function Initial(stored: Option<Snapshot>): (p: Progress)
    ensures p.streak == 0 && NoDup(p.solved)
    ensures stored.None? ==> p == Fresh
    ensures stored.Some? && stored.value.solved.Some? ==>
      p.score == OrZero(stored.value.score) && p.bestStreak == OrZero(stored.value.bestStreak)
    ensures stored.Some? && stored.value.solved.Some? ==>
      forall id :: id in p.solved <==> id in stored.value.solved.value
  {
    match Load(stored)
    case Some(p) => p
    case None => Fresh
  }

  /** What was saved comes back, except the streak, which restarts at 0. */
  lemma LoadSave(p: Progress)
    requires Valid(p)
    ensures Initial(Some(Save(p))) == p.(streak := 0)
    ensures Valid(Initial(Some(Save(p))))
  {
    DedupOfNoDup(p.solved);
  }

  /** With nothing stored, or a snapshot without a solved list, the session
      starts fresh, whatever score and best streak were stored. */
  lemma InitialWithoutData(stored: Option<Snapshot>)
    requires stored.None? || stored.value.solved.None?
    ensures Initial(stored) == Fresh
  {
  }
}

=== FILE: shapes.dfy ===
/**
 * The three text shapes the answer parser accepts, after normalisation:
 *
 *   plain        -?\d+(\.\d+)?
 *   sqrt call    (-?\d*\.?\d*)\*?sqrt\((\d+)\)
 *   radical sign (-?\d*\.?\d*)\*?√(\d+)
 *
 * Each shape is described by a datatype of its parts together with the text
 * those parts spell (the regular expression read as a printer), and each
 * matcher is proved to be that printer's exact inverse: it succeeds on a text
 * precisely when some well-formed parts spell it, and then returns those parts.
 */
module Shapes {
  import opened Text
  import opened Wrappers

  /** The parts of `-?\d*\.?\d*`: an optional sign, the digits before the
      point, whether there is a point, and the digits after it. */
  datatype Decimal = Decimal(negative: bool, whole: string, point: bool, fraction: string)

  /** Which spelling of the square root follows the coefficient. */
  datatype Root = SqrtCall | RadicalSign

  /** The parts of a radical answer: coefficient, optional `*`, root, radicand. */
  datatype RadicalText = RadicalText(coef: Decimal, star: bool, root: Root, radicand: string)

  const RadicalGlyph: char := '\U{221A}'

  /** Parts the coefficient pattern `-?\d*\.?\d*` can produce. Digits after
      a missing point are counted as part of the whole number, which is how
      the greedy first `\d*` splits them. */
  predicate DecimalOk(d: Decimal) {
    AllDigits(d.whole) && AllDigits(d.fraction) && (d.point || d.fraction == [])
  }

  /** Parts the plain-number pattern `-?\d+(\.\d+)?` can produce. */
  predicate PlainOk(d: Decimal) {
    DecimalOk(d) && d.whole != [] && (d.point ==> d.fraction != [])
  }

  predicate RadicalOk(x: RadicalText) {
    DecimalOk(x.coef) && IsNumeral(x.radicand)
  }

  function DecimalText(d: Decimal): string {
    (if d.negative then "-" else "") + d.whole + (if d.point then "." else "") + d.fraction
  }

  function RootText(root: Root, radicand: string): string {
    match root
    case SqrtCall => "sqrt(" + radicand + ")"
    case RadicalSign => [RadicalGlyph] + radicand
  }

  function RadicalRender(x: RadicalText): string {
    DecimalText(x.coef) + (if x.star then "*" else "") + RootText(x.root, x.radicand)
  }

  /** A character that can occur in the coefficient capture. */
  predicate IsCoefChar(c: char) {
    c == '-' || c == '.' || IsDigit(c)
  }

  /** Length of the longest prefix of `t` whose characters all satisfy `p`. */
  function Span(t: string, p: char -> bool): (k: nat)
    ensures k <= |t|
    ensures forall i :: 0 <= i < k ==> p(t[i])
    ensures k < |t| ==> !p(t[k])
  {
    if t != [] && p(t[0]) then 1 + Span(t[1..], p) else 0
  }

  lemma SpanOfJoin(a: string, b: string, p: char -> bool)
    requires forall i :: 0 <= i < |a| ==> p(a[i])
    requires b == [] || !p(b[0])
    ensures Span(a + b, p) == |a|
  {
    var k := Span(a + b, p);
    assert |a| < |a + b| ==> (a + b)[|a|] == b[0];
    assert forall i :: 0 <= i < |a| ==> (a + b)[i] == a[i];
  }

  /** Matches all of `g` against `-?\d*\.?\d*`. */
  function MatchDecimal(g: string): (m: Option<Decimal>)
    ensures m.Some? ==> DecimalOk(m.value) && DecimalText(m.value) == g
  {
    if |g| > 0 && g[0] == '-' then
      assert g == "-" + g[1..];
      MatchUnsigned(true, g[1..])
    else MatchUnsigned(false, g)
  }

  /** Matches all of `rest` against `\d*\.?\d*`; `negative` is the sign
      already read. */
  function MatchUnsigned(negative: bool, rest: string): (m: Option<Decimal>)
    ensures m.Some? ==> DecimalOk(m.value) && m.value.negative == negative
    ensures m.Some? ==> DecimalText(m.value) == (if negative then "-" else "") + rest
  {
    var k := Span(rest, IsDigit);
    if k == |rest| then
      Some(Decimal(negative, rest, false, []))
    else if rest[k] == '.' && AllDigits(rest[k + 1..]) then
      PointSplit(rest, k);
      Some(Decimal(negative, rest[..k], true, rest[k + 1..]))
    else
      None
  }

  /** Cutting at a point loses nothing. */
  lemma PointSplit(rest: string, k: nat)
    requires k < |rest| && rest[k] == '.'
    ensures rest == rest[..k] + "." + rest[k + 1..]
  {
    assert rest[k..] == "." + rest[k + 1..];
    assert rest == rest[..k] + rest[k..];
  }

  lemma DecimalTextChars(d: Decimal)
    requires DecimalOk(d)
    ensures forall i :: 0 <= i < |DecimalText(d)| ==> IsCoefChar(DecimalText(d)[i])
  {
  }

  /** Text the coefficient pattern accepts consists of coefficient characters. */
  lemma MatchDecimalChars(g: string)
    ensures MatchDecimal(g).Some? ==> forall i :: 0 <= i < |g| ==> IsCoefChar(g[i])
  {
    match MatchDecimal(g)
    case Some(d) => DecimalTextChars(d);
    case None =>
  }

  /** The matcher recovers the parts that spell a text: `MatchDecimal` is
      the inverse of `DecimalText`. */
  lemma MatchDecimalText(d: Decimal)
    requires DecimalOk(d)
    ensures MatchDecimal(DecimalText(d)) == Some(d)
  {
    var rest := d.whole + (if d.point then "." else "") + d.fraction;
    MatchUnsignedText(d, rest);
    if d.negative {
      assert DecimalText(d) == "-" + rest;
      assert DecimalText(d)[1..] == rest;
    } else {
      assert DecimalText(d) == rest;
      assert rest != [] ==> rest[0] != '-';
    }
  }

  lemma MatchUnsignedText(d: Decimal, rest: string)
    requires DecimalOk(d) && rest == d.whole + (if d.point then "." else "") + d.fraction
    ensures MatchUnsigned(d.negative, rest) == Some(d)
  {
    var tail := (if d.point then "." else "") + d.fraction;
    assert rest == d.whole + tail;
    SpanOfJoin(d.whole, tail, IsDigit);
    var k := |d.whole|;
    if d.point {
      assert rest[k] == '.';
      assert rest[..k] == d.whole;
      assert rest[k + 1..] == d.fraction;
    } else {
      assert rest == d.whole;
    }
  }

  /** Matches all of `t` against `-?\d+(\.\d+)?`. */
  function MatchPlain(t: string): (m: Option<Decimal>)
    ensures m.Some? ==> PlainOk(m.value) && DecimalText(m.value) == t
  {
    match MatchDecimal(t)
    case Some(d) => if d.whole != [] && (d.point ==> d.fraction != []) then Some(d) else None
    case None => None
  }

  lemma MatchPlainText(d: Decimal)
    requires PlainOk(d)
    ensures MatchPlain(DecimalText(d)) == Some(d)
  {
    MatchDecimalText(d);
  }

  /** Matches all of `body` against `sqrt\((\d+)\)` or `√(\d+)` and returns
      the radicand digits. */
  function MatchRoot(body: string, root: Root): (m: Option<string>)
    ensures m.Some? ==> IsNumeral(m.value) && RootText(root, m.value) == body
  {
    match root
    case SqrtCall =>
      if |body| >= 6 && body[..5] == "sqrt(" && body[|body| - 1] == ')' && IsNumeral(body[5..|body| - 1]) then
        assert body == "sqrt(" + body[5..|body| - 1] + ")";
        Some(body[5..|body| - 1])
      else None
    case RadicalSign =>
      if |body| >= 2 && body[0] == RadicalGlyph && IsNumeral(body[1..]) then
        assert body == [RadicalGlyph] + body[1..];
        Some(body[1..])
      else None
  }

  lemma MatchRootText(root: Root, radicand: string)
    requires IsNumeral(radicand)
    ensures MatchRoot(RootText(root, radicand), root) == Some(radicand)
  {
    var body := RootText(root, radicand);
    match root
    case SqrtCall =>
      assert body[..5] == "sqrt(";
      assert body[5..|body| - 1] == radicand;
    case RadicalSign =>
      assert body[1..] == radicand;
  }

  /** Matches all of `t` against `(-?\d*\.?\d*)\*?` followed by the given
      root. The coefficient capture is the longest prefix of coefficient
      characters: the character after it must be `*`, `s` or `√`. */
  function MatchRadical(t: string, root: Root): (m: Option<RadicalText>)
    ensures m.Some? ==> RadicalOk(m.value) && m.value.root == root && RadicalRender(m.value) == t
  {
    var k := Span(t, IsCoefChar);
    var after := t[k..];
    var star := |after| > 0 && after[0] == '*';
    var body := if star then after[1..] else after;
    match MatchDecimal(t[..k])
    case None => None
    case Some(d) =>
      match MatchRoot(body, root)
      case None => None
      case Some(n) =>
        StarSplit(t, k, star, body);
        Some(RadicalText(d, star, root, n))
  }

  /** Cutting `t` at `k` and dropping an optional `*` after the cut loses
      nothing. */
  lemma StarSplit(t: string, k: nat, star: bool, body: string)
    requires k <= |t|
    requires star ==> |t| > k && t[k] == '*' && body == t[k + 1..]
    requires !star ==> body == t[k..]
    ensures t == t[..k] + (if star then "*" else "") + body
  {
    if star {
      assert t[k..] == "*" + body;
    }
    assert t == t[..k] + t[k..];
  }

  /** A rendered radical splits into its coefficient text and what follows,
      which starts with `*`, `s` or `√`. */
  lemma RenderSplit(x: RadicalText)
    requires RadicalOk(x)
    ensures var g := DecimalText(x.coef);
      var after := (if x.star then "*" else "") + RootText(x.root, x.radicand);
      && RadicalRender(x) == g + after
      && Span(RadicalRender(x), IsCoefChar) == |g|
      && RadicalRender(x)[|g|..] == after
      && !IsCoefChar(after[0])
      && (x.star ==> after[0] == '*' && after[1..] == RootText(x.root, x.radicand))
      && (!x.star ==> after == RootText(x.root, x.radicand))
  {
    var g := DecimalText(x.coef);
    var body := RootText(x.root, x.radicand);
    var after := (if x.star then "*" else "") + body;
    assert RadicalRender(x) == g + after;
    assert body[0] == (if x.root == SqrtCall then 's' else RadicalGlyph);
    assert after[0] == (if x.star then '*' else body[0]);
    DecimalTextChars(x.coef);
    SpanOfJoin(g, after, IsCoefChar);
    assert (g + after)[|g|..] == after;
  }

  lemma MatchRadicalRender(x: RadicalText)
    requires RadicalOk(x)
    ensures MatchRadical(RadicalRender(x), x.root) == Some(x)
  {
    var t := RadicalRender(x);
    var g := DecimalText(x.coef);
    RenderSplit(x);
    assert t[..|g|] == g;
    MatchDecimalText(x.coef);
    MatchRootText(x.root, x.radicand);
  }

  /** A radical text never looks like a plain number. */
  lemma RadicalNotPlain(x: RadicalText)
    requires RadicalOk(x)
    ensures MatchPlain(RadicalRender(x)) == None
  {
    var t := RadicalRender(x);
    RenderSplit(x);
    MatchDecimalChars(t);
    assert t[|DecimalText(x.coef)|] == (if x.star then '*' else RootText(x.root, x.radicand)[0]);
  }

  /** The two spellings of the root never look like each other. */
  lemma RootsDisjoint(x: RadicalText, other: Root)
    requires RadicalOk(x) && other != x.root
    ensures MatchRadical(RadicalRender(x), other) == None
  {
    var body := RootText(x.root, x.radicand);
    RenderSplit(x);
    assert body[0] == (if x.root == SqrtCall then 's' else RadicalGlyph);
  }
}

=== FILE: text.dfy ===
/**
 * Character classes and string helpers shared by the answer parser, the
 * display formatter and the submission guard: the whitespace set of
 * JavaScript's `\s` and `String.prototype.trim`, ASCII lower-casing, decimal
 * digit strings and their values, and the decimal rendering of integers.
 */
module Text {

  /** The code points JavaScript treats as white space in `\s` and `trim`:
      the WhiteSpace and LineTerminator productions of ECMAScript. */
  predicate IsSpace(c: char) {
    || c == '\t' || c == '\n' || c == '\U{000B}' || c == '\U{000C}' || c == '\r'
    || c == ' ' || c == '\U{00A0}' || c == '\U{1680}'
    || ('\U{2000}' <= c <= '\U{200A}')
    || c == '\U{2028}' || c == '\U{2029}' || c == '\U{202F}' || c == '\U{205F}'
    || c == '\U{3000}' || c == '\U{FEFF}'
  }

  predicate IsUpper(c: char) {
    'A' <= c <= 'Z'
  }

  predicate IsDigit(c: char) {
    '0' <= c <= '9'
  }

  /** Lower-casing of one character; only the ASCII letters change. */
  function Lower(c: char): (d: char)
    ensures !IsUpper(d)
    ensures IsUpper(c) ==> d as int == c as int + 32
    ensures !IsUpper(c) ==> d == c
  {
    if IsUpper(c) then (c as int + 32) as char else c
  }

  /** Every character of `s` is white space (`s.trim()` is empty). */
  predicate IsBlank(s: string) {
    forall i :: 0 <= i < |s| ==> IsSpace(s[i])
  }

  /** Text that normalisation leaves alone: no white space, no capitals. */
  predicate IsClean(s: string) {
    forall i :: 0 <= i < |s| ==> !IsSpace(s[i]) && !IsUpper(s[i])
  }

  /** `s.replace(/\s+/g, "").toLowerCase()`: drop every white-space
      character and lower-case the rest. */
  function Normalize(s: string): (t: string)
    ensures IsClean(t)
    ensures |t| <= |s|
    ensures t == [] <==> IsBlank(s)
  {
    if s == [] then []
    else if IsSpace(s[0]) then Normalize(s[1..])
    else [Lower(s[0])] + Normalize(s[1..])
  }

  lemma {:induction false} NormalizeAppend(a: string, b: string)
    ensures Normalize(a + b) == Normalize(a) + Normalize(b)
  {
    if a == [] {
      assert a + b == b;
    } else {
      assert (a + b)[0] == a[0];
      assert (a + b)[1..] == a[1..] + b;
      NormalizeAppend(a[1..], b);
    }
  }

  /** Normalisation changes nothing exactly when there is nothing to change. */
  lemma {:induction false} NormalizeFixesClean(s: string)
    ensures Normalize(s) == s <==> IsClean(s)
  {
    if s != [] {
      NormalizeFixesClean(s[1..]);
      if IsSpace(s[0]) {
        assert |Normalize(s[1..])| <= |s[1..]| < |s|;
      }
    }
  }

  lemma NormalizeIdempotent(s: string)
    ensures Normalize(Normalize(s)) == Normalize(s)
  {
    NormalizeFixesClean(Normalize(s));
  }

  /** Case does not matter: texts that agree once each character is
      lower-cased normalise to the same text. */
  lemma {:induction false} NormalizeIgnoresCase(s: string, u: string)
    requires |s| == |u|
    requires forall i :: 0 <= i < |s| ==> Lower(s[i]) == Lower(u[i])
    ensures Normalize(s) == Normalize(u)
  {
    if s != [] {
      assert Lower(s[0]) == Lower(u[0]);
      assert IsSpace(s[0]) <==> IsSpace(u[0]);
      forall i | 0 <= i < |s[1..]|
        ensures Lower(s[1..][i]) == Lower(u[1..][i])
      {
        assert s[1..][i] == s[i + 1] && u[1..][i] == u[i + 1];
      }
      NormalizeIgnoresCase(s[1..], u[1..]);
    }
  }

  /** Length of the white-space run that starts `s`. */
  function LeadingSpace(s: string): (k: nat)
    ensures k <= |s| && IsBlank(s[..k])
    ensures k < |s| ==> !IsSpace(s[k])
  {
    if s != [] && IsSpace(s[0]) then
      var k := 1 + LeadingSpace(s[1..]);
      assert s[..k] == [s[0]] + s[1..][..k - 1];
      k
    else 0
  }

  /** Where the white-space run that ends `s` begins. */
  function TrailingSpace(s: string): (k: nat)
    ensures k <= |s| && IsBlank(s[k..])
    ensures 0 < k ==> !IsSpace(s[k - 1])
  {
    if s != [] && IsSpace(s[|s| - 1]) then
      var k := TrailingSpace(s[..|s| - 1]);
      assert s[k..] == s[..|s| - 1][k..] + [s[|s| - 1]];
      k
    else |s|
  }

  /** `s.trim()`: white space removed from both ends. */
  function Trim(s: string): (t: string)
    ensures t != [] ==> !IsSpace(t[0]) && !IsSpace(t[|t| - 1])
    ensures |t| <= |s|
    ensures t == [] <==> IsBlank(s)
  {
    var i := LeadingSpace(s);
    var u := s[i..];
    var j := TrailingSpace(u);
    if j == 0 then
      assert IsBlank(u[0..]) && s == s[..i];
      u[..j]
    else
      assert !IsSpace(s[i]);
      u[..j]
  }

  /** Trimming before normalising makes no difference, since normalising
      drops all white space anyway. */
  lemma TrimThenNormalize(s: string)
    ensures Normalize(Trim(s)) == Normalize(s)
  {
    var i := LeadingSpace(s);
    var u := s[i..];
    var k := TrailingSpace(u);
    TrimPieces(s, s[..i], u[..k], u[k..]);
  }

  lemma TrimPieces(s: string, a: string, t: string, b: string)
    requires s == a + (t + b) && IsBlank(a) && IsBlank(b)
    ensures Normalize(t) == Normalize(s)
  {
    assert s == a + t + b;
    BlankDropped(a, t, b);
  }

  /** White space around a text disappears when it is normalised. */
  lemma BlankDropped(a: string, t: string, b: string)
    requires IsBlank(a) && IsBlank(b)
    ensures Normalize(a + t + b) == Normalize(t)
  {
    NormalizeAppend(a + t, b);
    NormalizeAppend(a, t);
  }

  /** `\d*`. */
  predicate AllDigits(s: string) {
    forall i :: 0 <= i < |s| ==> IsDigit(s[i])
  }

  /** `\d+`. */
  predicate IsNumeral(s: string) {
    |s| > 0 && AllDigits(s)
  }

  function DigitValue(c: char): nat
    requires IsDigit(c)
  {
    c as int - '0' as int
  }

  function DigitChar(d: nat): (c: char)
    requires d < 10
    ensures IsDigit(c) && DigitValue(c) == d
  {
    (d + '0' as int) as char
  }

  /** The number a run of decimal digits denotes (`parseInt(s, 10)`). */
  function DigitsValue(s: string): nat
    requires AllDigits(s)
  {
    if s == [] then 0
    else 10 * DigitsValue(s[..|s| - 1]) + DigitValue(s[|s| - 1])
  }

  function Pow10(k: nat): (p: nat)
    ensures p >= 1
  {
    if k == 0 then 1 else 10 * Pow10(k - 1)
  }

  /** The value of a run of digits written after a decimal point. */
  function FractionValue(s: string): real
    requires AllDigits(s)
  {
    DigitsValue(s) as real / Pow10(|s|) as real
  }

  /** Decimal rendering of a natural number, without leading zeros. */
  function NatText(n: nat): (s: string)
    ensures IsNumeral(s)
    decreases n
  {
    if n < 10 then [DigitChar(n)] else NatText(n / 10) + [DigitChar(n % 10)]
  }

  /** Decimal rendering of an integer, with a leading `-` when negative. */
  function IntText(n: int): string {
    if n < 0 then "-" + NatText(-n) else NatText(n)
  }

  lemma {:induction false} NatTextValue(n: nat)
    ensures DigitsValue(NatText(n)) == n
    decreases n
  {
    if n >= 10 {
      var s := NatText(n);
      assert s[..|s| - 1] == NatText(n / 10);
      NatTextValue(n / 10);
    }
  }

  lemma DigitsAreClean(s: string)
    requires AllDigits(s)
    ensures IsClean(s)
  {
  }
}

=== FILE: wrappers.dfy ===
/** The optional value returned by the matchers when a text does not have
    the shape they look for. */
module Wrappers {

  datatype Option<+T> = None | Some(value: T)
}
